=== FILE: README.md ===
# litefun in Dafny

A model of the core of `litefun.cpp`, a small header-style C++ library that provides three types:

- `shared_ptr<T>`, a reference-counted pointer whose integer counter lives in a separately allocated block;
- `function<Result(Args...)>`, a type-erased callable that owns its implementation and deep-clones it on copy;
- `smartfun<Result(Args...)>`, the same callable interface built on `shared_ptr`, so copies alias one implementation instead of cloning it.

## The model

Each wrapper is a state machine over an abstract heap. Everything is an immutable datatype, and each C++ operation is a pure function from state to state.

- **`shared_ptr`** (`SharedPtr`).
  - A `Ptr` is the pair of raw members `ptr` and `ref_count`. Either member may be null.
  - The `Heap` holds the integer stored in every live counter block and the set of live managed values. It also logs every `delete` in order.
  - The live `shared_ptr` objects of a program form the sequence `handles`. An object's identity is its position, so `a = a` is an assignment between one index and itself.
  - Temporaries are live objects while they exist. The `tmp` of `operator=` and the `f2` of `smartfun::operator=(Func)` are appended, used, then destroyed. `operator=` is therefore literally copy, swap, destroy.
- **Undefined behaviour** (decrementing a deleted counter, deleting a value twice) is an explicit `Failure(Fault)`. The proofs show it never arises while the counting invariant `Inv` holds.
- **The counting invariant.**
  - The live counter map equals `Tally(handles)`, which counts the live objects per counter block. `Count` is the plain reference count, and `TallyIsCount` relates the two.
  - Objects sharing a counter share the value, and different counters manage different values.
  - Allocation bookkeeping keeps every counter ever allocated either live or deleted exactly once.
- **`function`** (`LiteFunction`). The store maps each live implementation id to a `Tag`, an opaque stand-in for the callable object's behaviour. Its invariant says each live implementation is owned by exactly one wrapper.
- **`smartfun`** (`SmartFun`). This is a `SharedPtr` state together with a map from managed addresses to tags.
- **Calls.** Calling passes through `Callable.Dispatch`. An empty wrapper returns the caller-supplied default, standing in for `Result{}`. Otherwise it applies a caller-supplied function to the implementation's tag.

`smartfun()` passes `nullptr` to the raw-pointer constructor of `shared_ptr` (lines 202-204). So an "empty" `smartfun` owns a freshly allocated counter of count 1 that manages a null value. It is not a pointer with both members null. `SmartFunProofs.MakeEmptyOwnsCounter` states this.

## Model

| member | source | states |
|---|---|---|
| SharedPtr.SwapRefs | litefun.cpp:4-8 | the two references come back exchanged |
| SharedPtr.SwapPtr | litefun.cpp:44-47 | `swap` exchanges both the value and the counter members of two objects |
| SharedPtr.IncRef | litefun.cpp:70-74 | a null counter is left alone; a live counter goes up by exactly one and nothing else in the heap changes; a deleted counter is a fault |
| SharedPtr.DecRef | litefun.cpp:76-78 | succeeds exactly when the counter is live; returns the decremented count and stores it, changing nothing else in the heap |
| SharedPtr.DeleteValue | litefun.cpp:30-32 | deleting a value succeeds exactly when it is live; it removes exactly that value, logs the deletion, and leaves every counter and the counter log untouched |
| SharedPtr.DeleteCounter | litefun.cpp:33 | deleting a counter succeeds exactly when it is live; it removes exactly that counter, logs the deletion, and leaves every value and the value log untouched |
| SharedPtr.NewCounter | litefun.cpp:16-18 | `new int` yields a block that is neither live nor ever freed, stores 0 in it, and changes no other counter or value |
| SharedPtr.Set | litefun.cpp:37-39 | `set` overwrites only the value member of one object; the counter and every other object are untouched |
| SharedPtr.NewValue | litefun.cpp:206-209 | the `new` expression whose result a call site hands to `shared_ptr(p)` (lines 208 and 223, through `SmartFun.NewImpl`) yields a value that is neither live nor ever freed, and touches no counter or object |
| SharedPtr.MakeEmpty | litefun.cpp:13 | `shared_ptr()`; its properties are stated by `SharedPtrProofs.MakeEmptyPreserves` |
| SharedPtr.MakeRaw | litefun.cpp:15-20 | `shared_ptr(p)` as `new int`, store 0, `inc_ref`; its properties are stated by `SharedPtrProofs.MakeRawPreserves` |
| SharedPtr.Copy | litefun.cpp:22-26 | copy construction as aliasing plus `inc_ref`; its properties are stated by `SharedPtrProofs.CopyPreserves` and `SharedPtrLifetime.CopyIsEqual` |
| SharedPtr.Release | litefun.cpp:28-35 | the destructor body on one object; its properties are stated by `SharedPtrProofs.ReleaseEffect` |
| SharedPtr.Destroy | litefun.cpp:28-35 | the end of one object's lifetime; its properties are stated by `SharedPtrProofs.DestroyPreserves` and `SharedPtrProofs.DestroyShared` |
| SharedPtr.Swap | litefun.cpp:44-47 | `swap` on two live objects; its properties are stated by `SharedPtrProofs.SwapPreserves` |
| SharedPtr.Assign | litefun.cpp:49-53 | `operator=` as copy of the source into a temporary, swap, destroy the temporary; its properties are stated by `SharedPtrLifetime.AssignPreserves`, `AssignSelfNoop` and `AssignOther` |
| SharedPtr.DestroyAll | litefun.cpp:28-35 | every live object's destructor, the most recently constructed first; its properties are stated by `SharedPtrLifetime.DestroyAllFreesOnce` |
| SharedPtr.Get | litefun.cpp:41-42 | `get()`; `SharedPtrLifetime.CopyIsEqual` and `SharedPtrLifetime.EqualityIsSharing` state what it returns |
| SharedPtr.Equal | litefun.cpp:63-65 | `operator==`; `SharedPtrLifetime.EqualityIsSharing` states that it holds exactly between objects sharing a counter |
| SharedPtr.NotEqual | litefun.cpp:67 | `operator!=`; `SharedPtrLifetime.EqualityIsSharing` states that it is the negation of `==` |
| SharedPtrProofs.TallyIsCount | litefun.cpp:70-78 | the tally of each block equals the number of live objects whose counter is that block |
| SharedPtrProofs.CountZero | litefun.cpp:28-35 | a block counts zero owners exactly when no live object refers to it |
| SharedPtrProofs.TallyRemove | litefun.cpp:28-35 | removing an object lowers its own counter's tally by one and drops the counter at zero, leaving the others alone |
| SharedPtrProofs.TallyUpdate | litefun.cpp:49-53 | overwriting an object moves one unit of tally from its old counter to its new one |
| SharedPtrProofs.CountsLiveObjects | litefun.cpp:15-35 | under the invariant every live counter holds the number of live objects sharing it, which is at least one, and a block that is not live has no owners |
| SharedPtrProofs.LiveObject | litefun.cpp:28-35 | a live object's non-null counter is live and positive and equals its number of sharers, and its non-null value is live |
| SharedPtrProofs.InitInv | litefun.cpp:13 | the invariant holds before anything is allocated |
| SharedPtrProofs.MakeEmptyPreserves | litefun.cpp:13 | `shared_ptr()` keeps the invariant and touches no heap state |
| SharedPtrProofs.MakeRawPreserves | litefun.cpp:15-20 | `shared_ptr(p)` allocates a counter never used before, with count exactly 1 even when `p` is null, and leaves every other counter as it was |
| SharedPtrProofs.CopyPreserves | litefun.cpp:22-26 | copy construction aliases the source and raises its counter by exactly one (no heap change for a null counter), keeping the invariant |
| SharedPtrProofs.ReleaseEffect | litefun.cpp:28-35 | the destructor decrements the counter, and only on the transition to zero deletes the value (when non-null) and then the counter |
| SharedPtrProofs.DestroyPreserves | litefun.cpp:28-35 | destruction keeps the invariant, removes only that object, and never faults |
| SharedPtrProofs.DestroyShared | litefun.cpp:28-35 | destroying one of several sharers only lowers the shared counter by one |
| SharedPtrProofs.SwapPreserves | litefun.cpp:44-47 | `swap` exchanges two objects, keeps the invariant and changes no counter |
| SharedPtrProofs.SetPreserves | litefun.cpp:37-39 | `set` on an unaliased object keeps the invariant, for a null pointer or for a live value that no other counter manages |
| SharedPtrLifetime.SetOnAliasBreaksInvariant | litefun.cpp:37-39 | `set` on one of two aliases leaves them disagreeing about the value their shared counter owns |
| SharedPtrLifetime.AssignPreserves | litefun.cpp:49-53 | copy-and-swap assignment keeps the invariant, makes the target an alias of the source, and amounts to counting the source once more and then releasing the target's old counter |
| SharedPtrLifetime.AssignSelfNoop | litefun.cpp:49-53 | self-assignment, or assigning an object that already aliases the same counter and value, leaves the whole state unchanged |
| SharedPtrLifetime.AssignOther | litefun.cpp:49-53 | between different counters, the source's counter goes up by one; the target's old counter goes down by one, or is deleted with its value when it was the last owner; every other counter is unchanged |
| SharedPtrLifetime.AssignFromTemporary | litefun.cpp:49-53 | assigning from a temporary that solely owns a counter and then destroying the temporary leaves the target as that counter's only owner, with count 1, and releases the target's old counter, deleting it and its value when the target was the last owner; the live values lose exactly that value in that case and nothing otherwise, and the value log gains exactly that entry |
| SharedPtrLifetime.AssignReleasesTarget | litefun.cpp:49-53 | assigning from an object with a different counter deletes a value exactly when the target held the last count on a non-null value, and then only that value, logged once |
| SharedPtrLifetime.ResetFresh | litefun.cpp:15-53 | `x = shared_ptr(p)`: `x` solely owns `p` through a fresh counter of count 1; its old counter goes down by one, or, when `x` was its last owner, is deleted together with the value it managed; no other object changes; the live values lose exactly that value in that case and nothing otherwise, and the value log gains exactly that entry |
| SharedPtrLifetime.EqualityIsSharing | litefun.cpp:41-67 | `!=` is the negation of `==`, two counted non-null objects compare equal exactly when they share one counter, and objects sharing a counter return the same `get()` |
| SharedPtrLifetime.CopyIsEqual | litefun.cpp:22-26 | a copy compares equal to its source and `get()` returns the same address |
| SharedPtrLifetime.DestroyAllFreesOnce | litefun.cpp:28-35 | destroying every live object, last constructed first, never faults, deletes every counter ever allocated exactly once, and deletes each value still managed by a live object exactly once; a live value survives exactly when no object with a counter manages it, and no value becomes live |
| SharedPtrLifetime.UnownedSurvivesDestroy | litefun.cpp:28-35 | destroying the most recently constructed object leaves every live value that no counted object manages still live and still unmanaged |
| SharedPtrLifetime.CopyTimesCounts | litefun.cpp:22-26 | `n` copies of an object raise its counter by exactly `n` |
| SharedPtrLifetime.CopiesThenDestroyFreesOnce | litefun.cpp:15-35 | a value wrapped once and copied `n` times reaches count `n + 1`; after every copy is gone, the value and its counter are each deleted exactly once |
| Callable.Dispatch | litefun.cpp:161-166 | an empty wrapper yields the default result; a non-empty one yields its implementation's behaviour applied to the arguments |
| LiteFunction.Clone | litefun.cpp:118-120 | cloning a live implementation allocates an id that was never live, gives it the same behaviour, and leaves every other implementation and the deletion log untouched; cloning a deleted one is a fault |
| LiteFunction.Delete | litefun.cpp:169 | deleting null does nothing; deleting a live implementation removes and logs it |
| LiteFunction.NewImpl | litefun.cpp:110-112 | `new concrete_function(x)` yields an id that was never live, holding `x`, and leaves every other implementation untouched |
| LiteFunction.MakeEmpty | litefun.cpp:131-133 | `function()`; its properties are stated by `LiteFunctionProofs.MakeEmptyPreserves` |
| LiteFunction.MakeFrom | litefun.cpp:135-137 | `function(x)`; its properties are stated by `LiteFunctionProofs.MakeFromPreserves` |
| LiteFunction.Copy | litefun.cpp:139-141 | the copy constructor; its properties are stated by `LiteFunctionProofs.CopyPreserves` and `CopyIsIndependent` |
| LiteFunction.Assign | litefun.cpp:143-151 | copy assignment; its properties are stated by `LiteFunctionProofs.AssignNoop` and `AssignClones` |
| LiteFunction.AssignFrom | litefun.cpp:153-159 | assignment from an invocable; its properties are stated by `LiteFunctionProofs.AssignFromPreserves` |
| LiteFunction.Call | litefun.cpp:161-166 | `operator()`; its properties are stated by `LiteFunctionProofs.CallContract` |
| LiteFunction.Destroy | litefun.cpp:168-170 | the destructor; its properties are stated by `LiteFunctionProofs.DestroyPreserves` |
| LiteFunctionProofs.InitInv | litefun.cpp:131-133 | the ownership invariant holds for the empty store |
| LiteFunctionProofs.CallContract | litefun.cpp:161-166 | an empty `function` returns the default result; a non-empty one runs the implementation it owns |
| LiteFunctionProofs.MakeEmptyPreserves | litefun.cpp:131-133 | `function()` keeps the invariant and is empty |
| LiteFunctionProofs.MakeFromPreserves | litefun.cpp:135-137 | `function(x)` owns a fresh implementation of `x`; the other wrappers keep their behaviour |
| LiteFunctionProofs.CopyPreserves | litefun.cpp:139-141 | the copy of an empty wrapper is empty; the copy of a non-empty one owns a freshly allocated implementation with the same behaviour |
| LiteFunctionProofs.AssignNoop | litefun.cpp:143-151 | assigning from itself, or from an empty wrapper, leaves the whole state unchanged |
| LiteFunctionProofs.AssignClones | litefun.cpp:143-151 | assigning from a different non-empty wrapper deletes the target's old implementation and installs a fresh clone with the source's behaviour |
| LiteFunctionProofs.AssignFromPreserves | litefun.cpp:153-159 | assigning an invocable deletes the old implementation, installs a fresh one for the invocable, and keeps the invariant |
| LiteFunctionProofs.DestroyPreserves | litefun.cpp:168-170 | `~function` deletes the owned implementation exactly once and the remaining wrappers keep their behaviour |
| LiteFunctionProofs.CopyIsIndependent | litefun.cpp:139-159 | after a copy, reassigning or destroying the original leaves the copy's behaviour unchanged |
| SmartFun.NewImpl | litefun.cpp:186-188 | `new smart_concrete_function(x)` yields a value that was neither live nor ever freed, holding `x`; no object or counter changes, and every other value keeps its implementation |
| SmartFun.MakeEmpty | litefun.cpp:202-204 | `smartfun()`; its properties are stated by `SmartFunProofs.MakeEmptyOwnsCounter` |
| SmartFun.MakeFrom | litefun.cpp:206-209 | `smartfun(x)`; its properties are stated by `SmartFunProofs.MakeFromPreserves` |
| SmartFun.Copy | litefun.cpp:211-212 | the copy constructor; its properties are stated by `SmartFunProofs.CopyShares` |
| SmartFun.Assign | litefun.cpp:214-219 | copy assignment; its properties are stated by `SmartFunProofs.AssignSelf`, `AssignAliases` and `AssignKeepsOthers` |
| SmartFun.AssignFrom | litefun.cpp:221-226 | assignment from an invocable through the temporary `f2`; its properties are stated by `SmartFunProofs.AssignFromCore`, `AssignFromFresh` and `AssignFromKeepsOthers` |
| SmartFun.Call | litefun.cpp:228-235 | `operator()`; its properties are stated by `SmartFunProofs.CallContract` |
| SmartFun.Destroy | litefun.cpp:201 | the implicit destructor, which destroys the `shared_ptr` member; its properties are stated by `SmartFunProofs.DestroyPreserves` |
| SmartFunProofs.InitInv | litefun.cpp:201 | the smartfun invariant holds initially |
| SmartFunProofs.CallContract | litefun.cpp:228-235 | a call dispatches to the shared implementation, and a wrapper whose `get()` is null returns the default result |
| SmartFunProofs.MakeEmptyOwnsCounter | litefun.cpp:202-204 | `smartfun()` owns a fresh counter of count 1 with a null value and calls as the default result |
| SmartFunProofs.MakeFromPreserves | litefun.cpp:206-209 | `smartfun(x)` owns a fresh counter of count 1 managing the implementation of `x` that was just allocated, a value neither live nor freed before |
| SmartFunProofs.CopyShares | litefun.cpp:211-212 | a copy aliases the same implementation and counter, raises the shared count by one, and calls the same behaviour |
| SmartFunProofs.AssignSelf | litefun.cpp:214-219 | self-assignment changes nothing, and in every case the wrapper's assignment is exactly the assignment of its `shared_ptr` member, with the implementations left in place |
| SmartFunProofs.AssignAliases | litefun.cpp:214-219 | copy assignment makes the target an alias of the source, calling its behaviour, and raises the source's count when they were not already sharing |
| SmartFunProofs.AssignKeepsOthers | litefun.cpp:214-219 | copy assignment leaves every other wrapper and its behaviour unchanged |
| SmartFunProofs.AssignFromCore | litefun.cpp:221-226 | assigning an invocable leaves the target as sole owner of a fresh counter of count 1 for the new implementation; its old counter goes down by one, or, when the target was the last owner, is deleted together with the old implementation; the live values are the old ones plus the new implementation, minus the old implementation in that case, and the value log gains exactly that entry |
| SmartFunProofs.AssignFromFresh | litefun.cpp:221-226 | assigning an invocable keeps the invariant and the target calls the new invocable |
| SmartFunProofs.AssignFromKeepsOthers | litefun.cpp:221-226 | assigning an invocable leaves every other wrapper and its behaviour unchanged |
| SmartFunProofs.AssignFromFrame | litefun.cpp:221-226 | assigning an invocable keeps the invariant and the number of wrappers, leaves every other wrapper's object as it was, and keeps the tag of every implementation that was live before |
| SmartFunProofs.DestroyPreserves | litefun.cpp:201 | destroying a `smartfun`, which runs its `shared_ptr` member's destructor, keeps the invariant and the others' behaviour |

## Left out

- Real memory, addresses and `new`/`delete`: allocation is a fresh natural number. `delete` is a removal from the live set plus an entry in a log. `SharedPtr.NewValue` stands for the `new` whose result is handed to `shared_ptr(p)`; in this file that is `new smart_concrete_function` (lines 208 and 223), modelled by `SmartFun.NewImpl`. `new concrete_function` (lines 119, 136 and 155) is modelled by `LiteFunction.NewImpl`.
- The counter is an unbounded integer. The `int` of `ref_count` could overflow after more than `INT_MAX` copies. The model does not bound the count.
- `operator*` and `operator->` (lines 55-61): dereferencing is not modelled. Only the address, through `get()`, is.
- `func_filter` (lines 85-95) and the variadic argument plumbing: they only select the stored callable's type. Arguments and results are type parameters of `Call`.
- The user's invocable objects: a callable is a `Tag`, and its behaviour is a function supplied by the caller. Stateful invocables, exceptions thrown by them, and `void` results are outside the model.
- `abstract_function`, `concrete_function` and the `smart_*` classes (lines 97-121, 174-192) appear only through what they do: store a tag, invoke it, clone it.
- Threads: the library has no synchronisation, and the model is sequential.
- Move construction and move assignment: the source defines none, so the compiler falls back to the copy operations modelled here.
- The caller contracts of `shared_ptr(p)` and `set(p)` are not checked by the source. Breaking them can leak a value or delete one twice. `set` on one of two aliases leaks a value. Passing a pointer that is already managed or already freed deletes it twice. `MakeRawPreserves` and `SetPreserves` assume them (`Unowned`, `SetAllowed`). `SetOnAliasBreaksInvariant` shows the first misuse breaking the agreement between objects that share a counter.
- Direct access to smartfun's public member `f` (line 201) is not modelled. Every smartfun operation goes through the wrapper, which is what keeps `SmartFun.Inv`'s "every wrapper owns a counter" true.
- Scope exit is modelled as destroying the most recently constructed object first (`DestroyAll`). Any other destruction order is an arbitrary sequence of `Destroy` calls.

=== FILE: callable.dfy ===
/** What both callable wrappers share: an opaque behaviour for a stored invocable
    and the call rule "an empty wrapper returns the default result". */
module Callable {
  import opened Wrappers

  /** The behaviour of one stored invocable (its concrete type and captured copy). */
  type Tag = nat

  /** Calling a wrapper that holds `held`: the stored invocable's result when there is one,
      otherwise the value-initialised result `default` (which stands for `Result{}`). */
  function Dispatch<A, R>(held: Option<Tag>, apply: (Tag, A) -> R, args: A, default: R): (r: R)
    ensures held.None? ==> r == default
    ensures held.Some? ==> r == apply(held.value, args)
  {
    match held
    case None => default
    case Some(t) => apply(t, args)
  }
}

=== FILE: function.dfy ===
/** The owning, cloning callable wrapper `function<Result(Args...)>` of litefun.cpp.

    A wrapper owns at most one implementation object (`abstract_function *f`). An
    implementation is an id in an abstract store carrying the behaviour `Tag` of the
    invocable it wraps; `clone()` allocates a fresh id with the same tag. Every live wrapper
    of the program is an element of `fns`, and its identity is its index, so that `a = a`
    is an assignment between one index and itself. Deleting an implementation that is no
    longer live is undefined behaviour in C++ and a `Failure` here. */
module LiteFunction {
  import opened Wrappers
  import opened Seqs
  import opened Callable

  /** The address of an implementation object (`concrete_function<Func, Result, Args...>`). */
  type ImplId = nat

  datatype Fault = ImplFreed(id: ImplId)

  /** One `function` object: its member `f`, possibly null. */
  datatype Fn = Fn(f: Option<ImplId>)

  /** Live implementation objects and their behaviour; ids come from `nextImpl` and are never
      reused; `freed` logs every `delete` of an implementation. */
  datatype Store = Store(impls: map<ImplId, Tag>, nextImpl: nat, freed: seq<ImplId>)

  datatype State = State(store: Store, fns: seq<Fn>)

  function Init(): State {
    State(Store(map[], 0, []), [])
  }

  // ---------------------------------------------------------------------------------------
  // Store primitives

  /** `new concrete_function<...>(x)` (lines 110-112, used at 136 and 155). */
  function NewImpl(st: Store, t: Tag): (r: (Store, ImplId))
    ensures r.0.impls == st.impls[r.1 := t] && r.0.freed == st.freed
    ensures Bookkept(st) ==> r.1 !in st.impls && r.1 !in st.freed && Bookkept(r.0)
  {
    var id := st.nextImpl;
    (st.(impls := st.impls[id := t], nextImpl := id + 1), id)
  }

  /** `clone()` (lines 118-120): a new implementation wrapping a copy of the same invocable. */
  function Clone(st: Store, id: ImplId): (r: Result<(Store, ImplId), Fault>)
    ensures id in st.impls <==> r.Success?
    ensures r.Success? ==> r.value.0.impls == st.impls[r.value.1 := st.impls[id]] && r.value.0.freed == st.freed
    ensures Bookkept(st) && r.Success? ==>
      r.value.1 !in st.impls && r.value.1 !in st.freed && Bookkept(r.value.0)
  {
    if id in st.impls then Success(NewImpl(st, st.impls[id]))
    else Failure(ImplFreed(id))
  }

  /** `delete f` (lines 147, 156 and 169); deleting a null pointer does nothing. */
  function Delete(st: Store, f: Option<ImplId>): (r: Result<Store, Fault>)
    ensures r.Success? <==> (f.Some? ==> f.value in st.impls)
    ensures f.None? ==> r == Success(st)
    ensures f.Some? && r.Success? ==>
      r.value.impls == st.impls - {f.value} && r.value.freed == st.freed + [f.value]
  {
    match f
    case None => Success(st)
    case Some(id) =>
      if id in st.impls then Success(st.(impls := st.impls - {id}, freed := st.freed + [id]))
      else Failure(ImplFreed(id))
  }

  // ---------------------------------------------------------------------------------------
  // Operations

  /** `function()` (lines 131-133): holds no implementation. */
  function MakeEmpty(s: State): State {
    s.(fns := s.fns + [Fn(None)])
  }

  /** `function(const Func &x)` (lines 135-137): a new implementation wrapping `x`. */
  function MakeFrom(s: State, t: Tag): State {
    var c := NewImpl(s.store, t);
    State(c.0, s.fns + [Fn(Some(c.1))])
  }

  /** Copy construction from wrapper `i` (lines 139-141): clone the implementation, or stay empty. */
  function Copy(s: State, i: nat): Result<State, Fault>
    requires i < |s.fns|
  {
    match s.fns[i].f
    case None => Success(s.(fns := s.fns + [Fn(None)]))
    case Some(id) =>
      var c :- Clone(s.store, id);
      Success(State(c.0, s.fns + [Fn(Some(c.1))]))
  }

  /** `fns[i] = fns[j]` (lines 143-151): only when the source is another object and is
      non-empty, clone its implementation, delete the old one, install the clone. */
  function Assign(s: State, i: nat, j: nat): Result<State, Fault>
    requires i < |s.fns| && j < |s.fns|
  {
    if i != j && s.fns[j].f.Some? then
      var c :- Clone(s.store, s.fns[j].f.value);
      var st :- Delete(c.0, s.fns[i].f);
      Success(State(st, s.fns[i := Fn(Some(c.1))]))
    else
      Success(s)
  }

  /** `fns[i] = x` for an invocable `x` (lines 153-159): always a new implementation,
      and the old one is deleted. */
  function AssignFrom(s: State, i: nat, t: Tag): Result<State, Fault>
    requires i < |s.fns|
  {
    var c := NewImpl(s.store, t);
    var st :- Delete(c.0, s.fns[i].f);
    Success(State(st, s.fns[i := Fn(Some(c.1))]))
  }

  /** `operator()` (lines 161-166): dispatch to the implementation (lines 114-116), or
      return `Result{}` (`default`) when there is none. */
  function Call<A, R>(s: State, i: nat, apply: (Tag, A) -> R, args: A, default: R): Result<R, Fault>
    requires i < |s.fns|
  {
    match s.fns[i].f
    case None => Success(Dispatch(None, apply, args, default))
    case Some(id) =>
      if id in s.store.impls then Success(Dispatch(Some(s.store.impls[id]), apply, args, default))
      else Failure(ImplFreed(id))
  }

  /** `~function()` (lines 168-170) on wrapper `i`. */
  function Destroy(s: State, i: nat): Result<State, Fault>
    requires i < |s.fns|
  {
    var st :- Delete(s.store, s.fns[i].f);
    Success(State(st, Remove(s.fns, i)))
  }

  /** The behaviour wrapper `i` calls, `None` when it is empty. */
  function Behaviour(s: State, i: nat): Option<Tag>
    requires i < |s.fns| && Owned(s)
  {
    assert s.fns[i] in s.fns;
    match s.fns[i].f
    case None => None
    case Some(id) => Some(s.store.impls[id])
  }

  // ---------------------------------------------------------------------------------------
  // Ownership invariant

  /** Every implementation a wrapper points at is live. */
  ghost predicate Owned(s: State) {
    forall w | w in s.fns && w.f.Some? :: w.f.value in s.store.impls
  }

  /** Every live implementation is owned by exactly one wrapper: nothing leaks, nothing is shared. */
  ghost predicate Unique(s: State) {
    forall id | id in s.store.impls :: multiset(s.fns)[Fn(Some(id))] == 1
  }

  ghost predicate Bookkept(st: Store) {
    && (forall id | id in st.impls :: id < st.nextImpl)
    && (forall id | id in st.freed :: id < st.nextImpl && id !in st.impls)
    && NoDup(st.freed)
  }

  ghost predicate Inv(s: State) {
    Owned(s) && Unique(s) && Bookkept(s.store)
  }
}

=== FILE: function_proofs.dfy ===
/** Properties of the owning `function` wrapper: every operation keeps each live
    implementation owned by exactly one wrapper, copies are deep (a fresh implementation with
    the same behaviour), and an empty wrapper calls as `Result{}`. */
module LiteFunctionProofs {
  import opened Wrappers
  import opened Seqs
  import opened Callable
  import opened LiteFunction

  lemma InitInv()
    ensures Inv(Init())
  {
  }

  /** Calling an empty wrapper returns the default result; calling a non-empty one runs the
      behaviour of the implementation it owns. */
  lemma CallContract<A, R>(s: State, i: nat, apply: (Tag, A) -> R, args: A, default: R)
    requires i < |s.fns|
    ensures s.fns[i].f.None? ==> Call(s, i, apply, args, default) == Success(default)
    ensures Owned(s) && s.fns[i].f.Some? ==>
      Call(s, i, apply, args, default) == Success(apply(s.store.impls[s.fns[i].f.value], args))
    ensures Owned(s) ==> Call(s, i, apply, args, default) == Success(Dispatch(Behaviour(s, i), apply, args, default))
  {
    assert s.fns[i] in s.fns;
  }

  /** The occurrences of one wrapper value after appending `x`. */
  lemma OccursSnoc(fns: seq<Fn>, x: Fn, w: Fn)
    ensures multiset(fns + [x])[w] == multiset(fns)[w] + (if x == w then 1 else 0)
  {
  }

  /** The occurrences of one wrapper value after overwriting index `i` with `x`. */
  lemma OccursUpdate(fns: seq<Fn>, i: nat, x: Fn, w: Fn)
    requires i < |fns|
    ensures multiset(fns[i := x])[w] + (if fns[i] == w then 1 else 0)
         == multiset(fns)[w] + (if x == w then 1 else 0)
  {
    UpdateElements(fns, i, x);
    assert fns[i] in fns;
  }

  /** A store id no wrapper points at. */
  lemma NotHeld(s: State, id: ImplId)
    requires Owned(s) && id !in s.store.impls
    ensures multiset(s.fns)[Fn(Some(id))] == 0
  {
    if Fn(Some(id)) in s.fns {
    }
  }

  /** `function()` keeps the invariant and the new wrapper is empty. */
  lemma MakeEmptyPreserves(s: State)
    requires Inv(s)
    ensures var s' := MakeEmpty(s);
      Inv(s') && Behaviour(s', |s.fns|) == None && s'.fns[..|s.fns|] == s.fns
  {
    var s' := MakeEmpty(s);
    assert s'.fns[..|s.fns|] == s.fns;
    forall id | id in s.store.impls
      ensures multiset(s'.fns)[Fn(Some(id))] == 1
    {
      OccursSnoc(s.fns, Fn(None), Fn(Some(id)));
    }
  }

  /** `function(x)` keeps the invariant; the new wrapper owns a fresh implementation of `x`. */
  lemma MakeFromPreserves(s: State, t: Tag)
    requires Inv(s)
    ensures var s' := MakeFrom(s, t);
      && Inv(s') && Behaviour(s', |s.fns|) == Some(t)
      && s'.fns[|s.fns|].f.value !in s.store.impls
      && s'.fns[..|s.fns|] == s.fns
      && forall k | 0 <= k < |s.fns| :: Behaviour(s', k) == Behaviour(s, k)
  {
    var c := NewImpl(s.store, t);
    var x := Fn(Some(c.1));
    var s' := MakeFrom(s, t);
    assert s'.fns == s.fns + [x];
    assert s'.fns[..|s.fns|] == s.fns;
    NotHeld(s, c.1);
    forall id | id in s'.store.impls
      ensures multiset(s'.fns)[Fn(Some(id))] == 1
    {
      OccursSnoc(s.fns, x, Fn(Some(id)));
    }
    assert Owned(s');
    forall k | 0 <= k < |s.fns|
      ensures Behaviour(s', k) == Behaviour(s, k)
    {
      assert s.fns[k] in s.fns;
    }
  }

  /** Copy construction keeps the invariant. The copy of an empty wrapper is empty; the copy
      of a non-empty one owns a freshly allocated implementation with the same behaviour
      (a deep copy); nothing else changes. */
  lemma CopyPreserves(s: State, i: nat)
    requires Inv(s) && i < |s.fns|
    ensures Copy(s, i).Success?
    ensures var s' := Copy(s, i).value;
      var n := |s.fns|;
      && Inv(s') && |s'.fns| == n + 1 && s'.fns[..n] == s.fns
      && Behaviour(s', n) == Behaviour(s, i)
      && (s.fns[i].f.None? ==> s'.fns[n].f.None? && s'.store == s.store)
      && (s.fns[i].f.Some? ==> s'.fns[n].f.Some? && s'.fns[n].f.value !in s.store.impls)
      && forall k | 0 <= k < n :: Behaviour(s', k) == Behaviour(s, k)
  {
    var n := |s.fns|;
    assert s.fns[i] in s.fns;
    var s' := Copy(s, i).value;
    var x := s'.fns[n];
    assert s'.fns == s.fns + [x];
    assert s'.fns[..n] == s.fns;
    if x.f.Some? {
      NotHeld(s, x.f.value);
    }
    forall id | id in s'.store.impls
      ensures multiset(s'.fns)[Fn(Some(id))] == 1
    {
      OccursSnoc(s.fns, x, Fn(Some(id)));
    }
    assert Inv(s');
    KeepsPrefix(s, s');
  }

  /** Growing the store and appending wrappers leaves the existing wrappers' behaviour alone. */
  lemma KeepsPrefix(s: State, s': State)
    requires Owned(s) && Owned(s') && |s.fns| <= |s'.fns| && s'.fns[..|s.fns|] == s.fns
    requires forall id | id in s.store.impls :: id in s'.store.impls && s'.store.impls[id] == s.store.impls[id]
    ensures forall k | 0 <= k < |s.fns| :: Behaviour(s', k) == Behaviour(s, k)
  {
    forall k | 0 <= k < |s.fns|
      ensures Behaviour(s', k) == Behaviour(s, k)
    {
      assert s'.fns[k] == s.fns[k];
      assert s.fns[k] in s.fns;
    }
  }

  /** Copy assignment from itself, or from an empty wrapper, is a no-op: the target keeps its
      current implementation (it is not reset to empty). */
  lemma AssignNoop(s: State, i: nat, j: nat)
    requires i < |s.fns| && j < |s.fns|
    requires i == j || s.fns[j].f.None?
    ensures Assign(s, i, j) == Success(s)
  {
  }

  /** Copy assignment from a different, non-empty wrapper keeps the invariant: the target's
      old implementation (if any) is deleted, and the target owns a fresh clone with the
      source's behaviour; every other wrapper is unchanged. */
  lemma AssignClones(s: State, i: nat, j: nat)
    requires Inv(s) && i < |s.fns| && j < |s.fns|
    requires i != j && s.fns[j].f.Some?
    ensures Assign(s, i, j).Success?
    ensures var s' := Assign(s, i, j).value;
      && Inv(s') && |s'.fns| == |s.fns|
      && Behaviour(s', i) == Behaviour(s, j)
      && s'.fns[i].f.Some? && s'.fns[i].f.value !in s.store.impls
      && (s.fns[i].f.Some? ==> s.fns[i].f.value !in s'.store.impls && s.fns[i].f.value in s'.store.freed)
      && forall k | 0 <= k < |s.fns| && k != i :: s'.fns[k] == s.fns[k] && Behaviour(s', k) == Behaviour(s, k)
  {
    assert s.fns[i] in s.fns && s.fns[j] in s.fns;
    var c := NewImpl(s.store, s.store.impls[s.fns[j].f.value]);
    Replace(s, i, c.0, c.1);
  }

  /** Assigning an invocable keeps the invariant: the old implementation (if any) is always
      deleted and the target owns a fresh implementation of the invocable; every other
      wrapper is unchanged. */
  lemma AssignFromPreserves(s: State, i: nat, t: Tag)
    requires Inv(s) && i < |s.fns|
    ensures AssignFrom(s, i, t).Success?
    ensures var s' := AssignFrom(s, i, t).value;
      && Inv(s') && |s'.fns| == |s.fns|
      && Behaviour(s', i) == Some(t)
      && s'.fns[i].f.Some? && s'.fns[i].f.value !in s.store.impls
      && (s.fns[i].f.Some? ==> s.fns[i].f.value !in s'.store.impls && s.fns[i].f.value in s'.store.freed)
      && forall k | 0 <= k < |s.fns| && k != i :: s'.fns[k] == s.fns[k] && Behaviour(s', k) == Behaviour(s, k)
  {
    assert s.fns[i] in s.fns;
    var c := NewImpl(s.store, t);
    Replace(s, i, c.0, c.1);
  }

  /** The situation of both assignments after allocating: a fresh implementation `id` was
      added to the store, giving `st`. */
  ghost predicate Allocated(s: State, st: Store, id: ImplId) {
    && Bookkept(st) && id in st.impls && id !in s.store.impls && id !in s.store.freed
    && st.impls == s.store.impls[id := st.impls[id]] && st.nextImpl >= s.store.nextImpl
    && st.freed == s.store.freed
  }

  /** The common step of both assignments: the old implementation of wrapper `i` is deleted
      and the fresh `id` installed. */
  lemma Replace(s: State, i: nat, st: Store, id: ImplId)
    requires Inv(s) && i < |s.fns| && Allocated(s, st, id)
    ensures Delete(st, s.fns[i].f).Success?
    ensures var s' := State(Delete(st, s.fns[i].f).value, s.fns[i := Fn(Some(id))]);
      && Inv(s')
      && Behaviour(s', i) == Some(st.impls[id])
      && (s.fns[i].f.Some? ==> s.fns[i].f.value !in s'.store.impls && s.fns[i].f.value in s'.store.freed)
      && forall k | 0 <= k < |s.fns| && k != i :: s'.fns[k] == s.fns[k] && Behaviour(s', k) == Behaviour(s, k)
  {
    assert s.fns[i] in s.fns;
    ReplaceUnique(s, i, st, id);
    ReplaceOwned(s, i, st, id);
    var s' := State(Delete(st, s.fns[i].f).value, s.fns[i := Fn(Some(id))]);
    assert Bookkept(s'.store) by {
      if s.fns[i].f.Some? {
        NoDupAppend(st.freed, s.fns[i].f.value);
      }
    }
    ReplaceOthers(s, i, st, id);
  }

  lemma ReplaceUnique(s: State, i: nat, st: Store, id: ImplId)
    requires Inv(s) && i < |s.fns| && Allocated(s, st, id)
    requires Delete(st, s.fns[i].f).Success?
    ensures Unique(State(Delete(st, s.fns[i].f).value, s.fns[i := Fn(Some(id))]))
  {
    var w := s.fns[i];
    var x := Fn(Some(id));
    var st' := Delete(st, w.f).value;
    NotHeld(s, id);
    forall d | d in st'.impls
      ensures multiset(s.fns[i := x])[Fn(Some(d))] == 1
    {
      OccursUpdate(s.fns, i, x, Fn(Some(d)));
    }
  }

  lemma ReplaceOwned(s: State, i: nat, st: Store, id: ImplId)
    requires Inv(s) && i < |s.fns| && Allocated(s, st, id)
    requires Delete(st, s.fns[i].f).Success?
    ensures Owned(State(Delete(st, s.fns[i].f).value, s.fns[i := Fn(Some(id))]))
  {
    var w := s.fns[i];
    var x := Fn(Some(id));
    var st' := Delete(st, w.f).value;
    var rest := Remove(s.fns, i);
    UpdateElements(s.fns, i, x);
    RemoveElements(s.fns, i);
    if w.f.Some? {
      assert w in s.fns;
      assert multiset(rest)[w] == 0;
    }
    forall v | v in s.fns[i := x] && v.f.Some?
      ensures v.f.value in st'.impls
    {
      if v != x {
        assert v in rest;
        assert v in s.fns;
      }
    }
  }

  lemma ReplaceOthers(s: State, i: nat, st: Store, id: ImplId)
    requires Inv(s) && i < |s.fns| && Allocated(s, st, id)
    requires Delete(st, s.fns[i].f).Success?
    requires Owned(State(Delete(st, s.fns[i].f).value, s.fns[i := Fn(Some(id))]))
    ensures var s' := State(Delete(st, s.fns[i].f).value, s.fns[i := Fn(Some(id))]);
      forall k | 0 <= k < |s.fns| && k != i :: s'.fns[k] == s.fns[k] && Behaviour(s', k) == Behaviour(s, k)
  {
    var w := s.fns[i];
    var s' := State(Delete(st, w.f).value, s.fns[i := Fn(Some(id))]);
    forall k | 0 <= k < |s.fns| && k != i
      ensures Behaviour(s', k) == Behaviour(s, k)
    {
      assert s.fns[k] in s.fns;
      if s.fns[k].f.Some? {
        assert s.fns[k] != w by {
          if s.fns[k] == w {
            if k < i { TwoPositions(s.fns, k, i); } else { TwoPositions(s.fns, i, k); }
          }
        }
      }
    }
  }

  /** `~function()` keeps the invariant: the wrapper's implementation (if any) is deleted and
      the remaining wrappers keep their behaviour. */
  lemma DestroyPreserves(s: State, i: nat)
    requires Inv(s) && i < |s.fns|
    ensures Destroy(s, i).Success?
    ensures var s' := Destroy(s, i).value;
      && Inv(s') && s'.fns == Remove(s.fns, i)
      && (s.fns[i].f.Some? ==> s.fns[i].f.value !in s'.store.impls && s.fns[i].f.value in s'.store.freed)
      && forall k | 0 <= k < |s'.fns| ::
           Behaviour(s', k) == Behaviour(s, if k < i then k else k + 1)
  {
    DestroyInv(s, i);
    DestroyKeeps(s, i);
  }

  lemma DestroyInv(s: State, i: nat)
    requires Inv(s) && i < |s.fns|
    ensures Destroy(s, i).Success?
    ensures var s' := Destroy(s, i).value;
      && Inv(s') && s'.fns == Remove(s.fns, i)
      && (s.fns[i].f.Some? ==> s'.store.impls == s.store.impls - {s.fns[i].f.value})
      && (s.fns[i].f.None? ==> s'.store == s.store)
  {
    var w := s.fns[i];
    assert w in s.fns;
    var s' := Destroy(s, i).value;
    var rest := Remove(s.fns, i);
    RemoveElements(s.fns, i);
    if w.f.Some? {
      assert multiset(rest)[w] == 0;
    }
    forall v | v in rest && v.f.Some?
      ensures v.f.value in s'.store.impls
    {
      assert v in s.fns;
    }
    assert Bookkept(s'.store) by {
      if w.f.Some? {
        NoDupAppend(s.store.freed, w.f.value);
      }
    }
  }

  /** The remaining wrappers keep their behaviour after a destruction. */
  lemma DestroyKeeps(s: State, i: nat)
    requires Inv(s) && i < |s.fns|
    requires Destroy(s, i).Success? && Inv(Destroy(s, i).value)
    requires Destroy(s, i).value.fns == Remove(s.fns, i)
    requires s.fns[i].f.Some? ==> Destroy(s, i).value.store.impls == s.store.impls - {s.fns[i].f.value}
    requires s.fns[i].f.None? ==> Destroy(s, i).value.store == s.store
    ensures var s' := Destroy(s, i).value;
      forall k | 0 <= k < |s'.fns| :: Behaviour(s', k) == Behaviour(s, if k < i then k else k + 1)
  {
    var s' := Destroy(s, i).value;
    var rest := s'.fns;
    forall k | 0 <= k < |rest|
      ensures Behaviour(s', k) == Behaviour(s, if k < i then k else k + 1)
    {
      assert rest[k] in s.fns;
      assert rest[k] in rest;
    }
  }

  /** Copies are independent (the deep-copy property): after `b := a` by copy construction,
      giving `a` a new invocable or destroying `a` leaves the behaviour of `b` as it was. */
  lemma CopyIsIndependent(s: State, i: nat, t: Tag)
    requires Inv(s) && i < |s.fns|
    ensures Copy(s, i).Success?
    ensures var s1 := Copy(s, i).value;
      var n := |s.fns|;
      && AssignFrom(s1, i, t).Success?
      && Inv(AssignFrom(s1, i, t).value)
      && Behaviour(AssignFrom(s1, i, t).value, n) == Behaviour(s, i)
      && Behaviour(AssignFrom(s1, i, t).value, i) == Some(t)
      && Destroy(s1, i).Success?
      && Inv(Destroy(s1, i).value)
      && Behaviour(Destroy(s1, i).value, n - 1) == Behaviour(s, i)
  {
    CopyPreserves(s, i);
    var s1 := Copy(s, i).value;
    AssignFromPreserves(s1, i, t);
    DestroyPreserves(s1, i);
  }
}

=== FILE: seqs.dfy ===
/** Small facts about sequences used by both ownership models. */
module Seqs {

  /** The sequence without its element at index `i` (an object leaving scope). */
  function Remove<T>(s: seq<T>, i: nat): (r: seq<T>)
    requires i < |s|
    ensures |r| == |s| - 1
  {
    s[..i] + s[i + 1..]
  }

  /** What `Remove` keeps: the elements before `i` in place, the ones after `i` shifted
      down by one, and so every element of `s` except one copy of `s[i]`. */
  lemma RemoveElements<T>(s: seq<T>, i: nat)
    requires i < |s|
    ensures var r := Remove(s, i);
      && (forall k | 0 <= k < i :: r[k] == s[k])
      && (forall k | i <= k < |r| :: r[k] == s[k + 1])
      && multiset(r) == multiset(s) - multiset{s[i]}
  {
    assert s == s[..i] + [s[i]] + s[i + 1..];
  }

  /** Removing the last element is taking the prefix. */
  lemma RemoveLast<T>(s: seq<T>)
    requires |s| > 0
    ensures Remove(s, |s| - 1) == s[..|s| - 1]
  {
  }

  /** Every element left after removing index `i` was an element of `s`. */
  lemma RemoveSubset<T>(s: seq<T>, i: nat)
    requires i < |s|
    ensures forall q | q in Remove(s, i) :: q in s
  {
    assert Remove(s, i) == s[..i] + s[i + 1..];
  }

  /** Every element of `s[i := x]` is `x` or an element of `s` other than the one at `i`. */
  lemma UpdateElements<T>(s: seq<T>, i: nat, x: T)
    requires i < |s|
    ensures multiset(s[i := x]) == multiset(Remove(s, i)) + multiset{x}
    ensures forall q | q in s[i := x] :: q == x || q in Remove(s, i)
  {
    var r := Remove(s, i);
    assert s[i := x] == s[..i] + [x] + s[i + 1..];
    assert r == s[..i] + s[i + 1..];
    assert multiset(s[i := x]) == multiset(r) + multiset{x};
    forall q | q in s[i := x]
      ensures q == x || q in r
    {
      assert q in multiset(s[i := x]);
    }
  }

  /** Every element of `s[i := x]` is `x` or an element of `s`. */
  lemma UpdateSubset<T>(s: seq<T>, i: nat, x: T)
    requires i < |s|
    ensures forall q | q in s[i := x] :: q == x || q in s
  {
    forall q | q in s[i := x]
      ensures q == x || q in s
    {
      var k :| 0 <= k < |s| && s[i := x][k] == q;
      if k != i {
        assert s[k] == q;
      }
    }
  }

  /** No element occurs twice. */
  predicate NoDup<T(==)>(s: seq<T>) {
    forall i, j | 0 <= i < j < |s| :: s[i] != s[j]
  }

  /** Appending an element that is not yet present keeps the elements distinct. */
  lemma NoDupAppend<T>(s: seq<T>, x: T)
    requires NoDup(s) && x !in s
    ensures NoDup(s + [x])
  {
  }

  /** In a sequence without repeats, a present element occurs exactly once. */
  lemma {:induction false} NoDupOnce<T>(s: seq<T>, x: T)
    requires NoDup(s)
    ensures x in s ==> multiset(s)[x] == 1
    ensures x !in s ==> multiset(s)[x] == 0
  {
    if |s| == 0 {
    } else {
      var init := s[..|s| - 1];
      assert s == init + [s[|s| - 1]];
      assert NoDup(init);
      NoDupOnce(init, x);
      if x == s[|s| - 1] {
        assert x !in init;
      }
    }
  }

  /** If a value sits at two different positions it occurs at least twice. */
  lemma {:induction false} TwoPositions<T>(s: seq<T>, i: nat, j: nat)
    requires i < j < |s| && s[i] == s[j]
    ensures multiset(s)[s[i]] >= 2
  {
    assert s == s[..j] + [s[j]] + s[j + 1..];
    assert s[i] in s[..j];
    assert multiset(s) == multiset(s[..j]) + multiset{s[j]} + multiset(s[j + 1..]);
  }
}

=== FILE: shared_ptr.dfy ===
/** The reference-counted `shared_ptr` of litefun.cpp as a state machine over an abstract heap.

    A `shared_ptr` object is a pair of raw pointers: the managed value and a separately
    allocated counter block (the detached control block). The heap records which counter
    blocks and values are live, the integer stored in each live counter, and a log of every
    `delete`, so that "freed exactly once" can be stated. The live `shared_ptr` objects of a
    program are the sequence `handles`; an object's identity is its index, so that
    `a = a` is an assignment between one index and itself.

    Touching a counter or value that is no longer live is undefined behaviour in C++; here it
    is a `Failure(Fault)`, and the lemmas in SharedPtrProofs show it never happens while the
    counting invariant holds. */
module SharedPtr {
  import opened Wrappers
  import opened Seqs

  /** The address of a counter block (`int *ref_count`). */
  type BlockId = nat
  /** The address of a managed value (`contained *ptr`). */
  type Addr = nat

  /** One `shared_ptr` object: its `ptr` and `ref_count` members, each possibly null. */
  datatype Ptr = Ptr(val: Option<Addr>, rc: Option<BlockId>)

  /** Undefined behaviour the code could run into. */
  datatype Fault =
    | CounterFreed(block: BlockId)  // reading or writing a counter that was deleted
    | ValueFreed(addr: Addr)        // deleting or using a value that is not live

  /** The abstract heap. Ids are handed out from `nextBlock` / `nextAddr`, so a new allocation
      never reuses an id; `freedBlocks` and `freedValues` log every `delete` in order. */
  datatype Heap = Heap(
    counts: map<BlockId, int>,
    values: set<Addr>,
    nextBlock: nat,
    nextAddr: nat,
    freedBlocks: seq<BlockId>,
    freedValues: seq<Addr>)

  /** The heap together with every live `shared_ptr` object. */
  datatype State = State(heap: Heap, handles: seq<Ptr>)

  /** A program before anything is allocated. */
  function Init(): State {
    State(Heap(map[], {}, 0, 0, [], []), [])
  }

  // ---------------------------------------------------------------------------------------
  // Heap primitives

  /** `new int` followed by `*ref_count = 0` (lines 16 and 18). */
  function NewCounter(h: Heap): (r: (Heap, BlockId))
    ensures r.0.counts == h.counts[r.1 := 0]
    ensures Bookkept(h) ==> r.1 !in h.counts && r.1 !in h.freedBlocks
    ensures r.0.values == h.values && r.0.freedBlocks == h.freedBlocks && r.0.freedValues == h.freedValues
  {
    (h.(counts := h.counts[h.nextBlock := 0], nextBlock := h.nextBlock + 1), h.nextBlock)
  }

  /** `inc_ref` (lines 70-74): a null counter is left alone, a live one goes up by one.
      The counter-map clause follows from the whole-heap clause after it; it is kept
      separate because most proofs need only the counters. */
  function IncRef(h: Heap, rc: Option<BlockId>): (r: Result<Heap, Fault>)
    ensures rc.None? ==> r == Success(h)
    ensures rc.Some? && rc.value in h.counts ==>
      r.Success? && r.value.counts == h.counts[rc.value := h.counts[rc.value] + 1]
    ensures rc.Some? && rc.value in h.counts ==>
      r == Success(h.(counts := h.counts[rc.value := h.counts[rc.value] + 1]))
    ensures rc.Some? && rc.value !in h.counts ==> r == Failure(CounterFreed(rc.value))
  {
    match rc
    case None => Success(h)
    case Some(b) =>
      if b in h.counts then Success(h.(counts := h.counts[b := h.counts[b] + 1]))
      else Failure(CounterFreed(b))
  }

  /** `dec_ref` (lines 76-78): decrements the counter and returns the new count. The
      count and counter-map clauses follow from the last one; they are kept separate
      because most proofs need only those parts. */
  function DecRef(h: Heap, b: BlockId): (r: Result<(Heap, int), Fault>)
    ensures b in h.counts <==> r.Success?
    ensures r.Success? ==> b in h.counts && r.value.1 == h.counts[b] - 1
    ensures r.Success? ==> r.value.0.counts == h.counts[b := r.value.1]
    ensures b in h.counts ==> r == Success((h.(counts := h.counts[b := h.counts[b] - 1]), h.counts[b] - 1))
  {
    if b in h.counts then
      var n := h.counts[b] - 1;
      Success((h.(counts := h.counts[b := n]), n))
    else
      Failure(CounterFreed(b))
  }

  /** `delete ptr` (line 31). */
  function DeleteValue(h: Heap, a: Addr): (r: Result<Heap, Fault>)
    ensures a in h.values <==> r.Success?
    ensures r.Success? ==> r.value.values == h.values - {a} && r.value.freedValues == h.freedValues + [a]
    ensures r.Success? ==> r.value.counts == h.counts && r.value.freedBlocks == h.freedBlocks
  {
    if a in h.values then Success(h.(values := h.values - {a}, freedValues := h.freedValues + [a]))
    else Failure(ValueFreed(a))
  }

  /** `delete ref_count` (line 33). */
  function DeleteCounter(h: Heap, b: BlockId): (r: Result<Heap, Fault>)
    ensures b in h.counts <==> r.Success?
    ensures r.Success? ==> r.value.counts == h.counts - {b} && r.value.freedBlocks == h.freedBlocks + [b]
    ensures r.Success? ==> r.value.values == h.values && r.value.freedValues == h.freedValues
  {
    if b in h.counts then Success(h.(counts := h.counts - {b}, freedBlocks := h.freedBlocks + [b]))
    else Failure(CounterFreed(b))
  }

  /** The destructor body (lines 28-35) run on the object `p`: with a non-null counter,
      decrement it; on reaching zero delete the value (when non-null) and then the counter. */
  function Release(h: Heap, p: Ptr): Result<Heap, Fault> {
    match p.rc
    case None => Success(h)
    case Some(b) =>
      var d :- DecRef(h, b);
      if d.1 == 0 then
        var h2 :- (match p.val
                   case Some(a) => DeleteValue(d.0, a)
                   case None => Success(d.0));
        DeleteCounter(h2, b)
      else
        Success(d.0)
  }

  /** Whether the destructor run on `p` deletes `p`'s value: the value is non-null and `p`
      holds the last count on its counter. */
  predicate DeletesValue(h: Heap, p: Ptr) {
    p.rc.Some? && p.val.Some? && p.rc.value in h.counts && h.counts[p.rc.value] == 1
  }

  /** `swap_refs` (lines 4-8): copy `a` into a temporary, assign `b` to `a`, then the temporary to `b`. */
  function SwapRefs<T>(a: T, b: T): (r: (T, T))
    ensures r.0 == b && r.1 == a
  {
    var c := a;
    var a' := b;
    var b' := c;
    (a', b')
  }

  /** `swap` (lines 44-47): exchange `ptr`, then exchange `ref_count`. */
  function SwapPtr(x: Ptr, y: Ptr): (r: (Ptr, Ptr))
    ensures r.0 == y && r.1 == x
  {
    var vals := SwapRefs(x.val, y.val);
    var rcs := SwapRefs(x.rc, y.rc);
    (Ptr(vals.0, rcs.0), Ptr(vals.1, rcs.1))
  }

  // ---------------------------------------------------------------------------------------
  // Operations on the program state

  /** `new contained` at a call site: a fresh live value, not yet owned by any `shared_ptr`. */
  function NewValue(s: State): (r: (State, Addr))
    ensures Bookkept(s.heap) ==> r.1 !in s.heap.values && r.1 !in s.heap.freedValues
    ensures r.0.heap.values == s.heap.values + {r.1}
    ensures r.0.handles == s.handles && r.0.heap.counts == s.heap.counts
    ensures r.0.heap.freedBlocks == s.heap.freedBlocks && r.0.heap.freedValues == s.heap.freedValues
  {
    var a := s.heap.nextAddr;
    (s.(heap := s.heap.(values := s.heap.values + {a}, nextAddr := a + 1)), a)
  }

  /** `shared_ptr()` (line 13): both members null, nothing allocated. */
  function MakeEmpty(s: State): State {
    s.(handles := s.handles + [Ptr(None, None)])
  }

  /** `shared_ptr(contained *p)` (lines 15-20): takes `p` (possibly null), allocates a counter,
      sets it to 0 and increments it. The new object is appended to the live handles. */
  function MakeRaw(s: State, p: Option<Addr>): Result<State, Fault> {
    var c := NewCounter(s.heap);
    var h :- IncRef(c.0, Some(c.1));
    Success(State(h, s.handles + [Ptr(p, Some(c.1))]))
  }

  /** Copy construction `shared_ptr(const shared_ptr &rhs)` (lines 22-26) from handle `i`:
      alias both members, then `inc_ref`. */
  function Copy(s: State, i: nat): Result<State, Fault>
    requires i < |s.handles|
  {
    var p := s.handles[i];
    var h :- IncRef(s.heap, p.rc);
    Success(State(h, s.handles + [p]))
  }

  /** Destruction of handle `i` (lines 28-35); the object leaves the live handles. */
  function Destroy(s: State, i: nat): Result<State, Fault>
    requires i < |s.handles|
  {
    var h :- Release(s.heap, s.handles[i]);
    Success(State(h, Remove(s.handles, i)))
  }

  /** `handles[i].swap(handles[j])` (lines 44-47). No counter is touched. */
  function Swap(s: State, i: nat, j: nat): State
    requires i < |s.handles| && j < |s.handles|
  {
    var r := SwapPtr(s.handles[i], s.handles[j]);
    s.(handles := s.handles[i := r.0][j := r.1])
  }

  /** `handles[i] = handles[j]` (lines 49-53): copy-and-swap. The temporary `tmp(rhs)` is a live
      object (appended last), is swapped with `*this`, and is destroyed at the end of the body. */
  function Assign(s: State, i: nat, j: nat): Result<State, Fault>
    requires i < |s.handles| && j < |s.handles|
  {
    var s1 :- Copy(s, j);
    var t := |s1.handles| - 1;
    var s2 := Swap(s1, i, t);
    Destroy(s2, t)
  }

  /** Scope exit: every live object is destroyed, the most recently constructed first. */
  function DestroyAll(s: State): Result<State, Fault>
    decreases |s.handles|
  {
    if |s.handles| == 0 then Success(s)
    else
      var s1 :- Destroy(s, |s.handles| - 1);
      DestroyAll(s1)
  }

  /** `set(p)` (lines 37-39): overwrites `ptr` only; the counter is not touched. */
  function Set(s: State, i: nat, p: Option<Addr>): (r: State)
    requires i < |s.handles|
    ensures r.heap == s.heap && |r.handles| == |s.handles|
    ensures r.handles[i].val == p && r.handles[i].rc == s.handles[i].rc
    ensures forall k | 0 <= k < |s.handles| && k != i :: r.handles[k] == s.handles[k]
  {
    s.(handles := s.handles[i := s.handles[i].(val := p)])
  }

  /** `get()` (lines 41-42). */
  function Get(p: Ptr): Option<Addr> {
    p.val
  }

  /** `operator==` (lines 63-65): address equality of the managed values. */
  predicate Equal(x: Ptr, y: Ptr) {
    x.val == y.val
  }

  /** `operator!=` (line 67), written as the negation of `rhs == *this`. */
  predicate NotEqual(x: Ptr, y: Ptr) {
    !Equal(y, x)
  }

  // ---------------------------------------------------------------------------------------
  // The counting invariant

  /** The number of live `shared_ptr` objects whose counter member is block `b`. */
  function Count(hs: seq<Ptr>, b: BlockId): (n: nat)
    ensures n <= |hs|
  {
    if |hs| == 0 then 0
    else
      var init := hs[..|hs| - 1];
      Count(init, b) + (if hs[|hs| - 1].rc == Some(b) then 1 else 0)
  }

  /** One more object on counter `rc` (nothing for a null counter). */
  function Bump(m: map<BlockId, int>, rc: Option<BlockId>): map<BlockId, int> {
    match rc
    case None => m
    case Some(b) => m[b := (if b in m then m[b] else 0) + 1]
  }

  /** One object fewer on counter `rc`; a counter that drops to zero disappears. */
  function Drop(m: map<BlockId, int>, rc: Option<BlockId>): map<BlockId, int> {
    match rc
    case None => m
    case Some(b) =>
      if b in m && m[b] > 1 then m[b := m[b] - 1] else m - {b}
  }

  /** The counter map the live objects call for, built one object at a time. */
  function Tally(hs: seq<Ptr>): map<BlockId, int> {
    if |hs| == 0 then map[]
    else Bump(Tally(hs[..|hs| - 1]), hs[|hs| - 1].rc)
  }

  ghost predicate Positive(m: map<BlockId, int>) {
    forall b | b in m :: m[b] >= 1
  }

  /** The live counters are exactly the tally of the live objects. */
  ghost predicate Counted(s: State) {
    s.heap.counts == Tally(s.handles)
  }

  /** A live object with a non-null counter manages a live value (if non-null). */
  ghost predicate Linked(s: State) {
    forall p | p in s.handles && p.rc.Some? && p.val.Some? :: p.val.value in s.heap.values
  }

  /** Objects sharing a counter share the managed value. */
  ghost predicate Agree(hs: seq<Ptr>) {
    forall p, q | p in hs && q in hs && p.rc.Some? && p.rc == q.rc :: p.val == q.val
  }

  /** Different counters manage different (non-null) values: no raw pointer was handed to two constructors. */
  ghost predicate Disjoint(hs: seq<Ptr>) {
    forall p, q | p in hs && q in hs && p.rc.Some? && q.rc.Some? && p.rc != q.rc && p.val.Some? ::
      p.val != q.val
  }

  /** Allocation bookkeeping: every counter ever allocated is either live or was deleted, never
      both; every deleted counter and value was deleted once. */
  ghost predicate Bookkept(h: Heap) {
    && (forall b | b in h.counts :: b < h.nextBlock)
    && (forall b | b in h.freedBlocks :: b < h.nextBlock && b !in h.counts)
    && (forall b: nat | b < h.nextBlock :: b in h.counts || b in h.freedBlocks)
    && NoDup(h.freedBlocks)
    && (forall a | a in h.values :: a < h.nextAddr)
    && (forall a | a in h.freedValues :: a < h.nextAddr && a !in h.values)
    && NoDup(h.freedValues)
  }

  /** The counting invariant: each live counter holds the number of live objects sharing it,
      and the managed values and allocation records are consistent with that. */
  ghost predicate Inv(s: State) {
    && Counted(s)
    && Linked(s)
    && Agree(s.handles)
    && Disjoint(s.handles)
    && Bookkept(s.heap)
  }

  /** The caller contract of `shared_ptr(p)`: `p` is null, or a live value that no
      counted object already manages. */
  ghost predicate Unowned(s: State, p: Option<Addr>) {
    p.Some? ==>
      && p.value in s.heap.values
      && forall q | q in s.handles && q.rc.Some? :: q.val != p
  }

  /** The caller contract of `set(p)`: the object is not aliased, and `p` is not managed by
      any other counter. */
  ghost predicate SetAllowed(s: State, i: nat, p: Option<Addr>)
    requires i < |s.handles|
  {
    var x := s.handles[i];
    x.rc.Some? ==>
      && Count(s.handles, x.rc.value) == 1
      && (p.Some? ==> p.value in s.heap.values)
      && (p.Some? ==> forall q | q in s.handles && q.rc.Some? && q.rc != x.rc :: q.val != p)
  }
}

=== FILE: shared_ptr_proofs.dfy ===
/** Properties of the `shared_ptr` state machine: every operation keeps each counter equal to
    the number of live objects sharing it, and so each counter and each managed value is
    deleted exactly once, when its last owner is destroyed. */
module SharedPtrProofs {
  import opened Wrappers
  import opened Seqs
  import opened SharedPtr

  // ---------------------------------------------------------------------------------------
  // Counter maps

  lemma BumpPositive(m: map<BlockId, int>, x: Option<BlockId>)
    requires Positive(m)
    ensures Positive(Bump(m, x))
  {
  }

  lemma DropPositive(m: map<BlockId, int>, y: Option<BlockId>)
    requires Positive(m)
    ensures Positive(Drop(m, y))
  {
  }

  /** Adding an object and then taking it away again restores the counters. */
  lemma DropBump(m: map<BlockId, int>, x: Option<BlockId>)
    requires Positive(m)
    ensures Drop(Bump(m, x), x) == m
  {
    if x.Some? {
      var b := x.value;
      if b in m {
        assert Bump(m, x)[b := m[b]] == m;
      } else {
        assert Bump(m, x) - {b} == m;
      }
    }
  }

  /** Taking away a counted object and then adding it back restores the counters. */
  lemma BumpDrop(m: map<BlockId, int>, y: Option<BlockId>)
    requires Positive(m) && (y.Some? ==> y.value in m)
    ensures Bump(Drop(m, y), y) == m
  {
    if y.Some? {
      var b := y.value;
      if m[b] > 1 {
        assert Drop(m, y)[b := m[b]] == m;
      } else {
        assert (m - {b})[b := 1] == m;
      }
    }
  }

  /** Adding one object and taking away another commute when the taken one is counted. */
  lemma BumpDropCommute(m: map<BlockId, int>, x: Option<BlockId>, y: Option<BlockId>)
    requires Positive(m) && (y.Some? ==> y.value in m)
    ensures Bump(Drop(m, y), x) == Drop(Bump(m, x), y)
  {
    if x == y {
      BumpDrop(m, y);
      DropBump(m, x);
    } else if x.Some? && y.Some? {
      var l := Bump(Drop(m, y), x);
      var r := Drop(Bump(m, x), y);
      assert l.Keys == r.Keys;
      forall c | c in l
        ensures l[c] == r[c]
      {
      }
    }
  }

  lemma BumpCommute(m: map<BlockId, int>, x: Option<BlockId>, y: Option<BlockId>)
    ensures Bump(Bump(m, x), y) == Bump(Bump(m, y), x)
  {
  }

  // ---------------------------------------------------------------------------------------
  // The tally of live objects

  lemma TallySnoc(hs: seq<Ptr>, p: Ptr)
    ensures Tally(hs + [p]) == Bump(Tally(hs), p.rc)
  {
    assert (hs + [p])[..|hs|] == hs;
  }

  lemma {:induction false} TallyPositive(hs: seq<Ptr>)
    ensures Positive(Tally(hs))
  {
    if |hs| > 0 {
      TallyPositive(hs[..|hs| - 1]);
      BumpPositive(Tally(hs[..|hs| - 1]), hs[|hs| - 1].rc);
    }
  }

  /** The counter of every live object is in the tally. */
  lemma {:induction false} TallyHas(hs: seq<Ptr>, p: Ptr)
    requires p in hs && p.rc.Some?
    ensures p.rc.value in Tally(hs)
  {
    var init := hs[..|hs| - 1];
    assert hs == init + [hs[|hs| - 1]];
    if p != hs[|hs| - 1] {
      assert p in init;
      TallyHas(init, p);
    }
  }

  /** The tally of block `b` is the number of live objects whose counter is `b`. */
  lemma {:induction false} TallyIsCount(hs: seq<Ptr>, b: BlockId)
    ensures Count(hs, b) == (if b in Tally(hs) then Tally(hs)[b] else 0)
  {
    if |hs| > 0 {
      TallyIsCount(hs[..|hs| - 1], b);
    }
  }

  /** A block counts nobody exactly when no live object refers to it. */
  lemma {:induction false} CountZero(hs: seq<Ptr>, b: BlockId)
    ensures Count(hs, b) == 0 <==> forall p | p in hs :: p.rc != Some(b)
  {
    if |hs| > 0 {
      var init := hs[..|hs| - 1];
      assert hs == init + [hs[|hs| - 1]];
      CountZero(init, b);
    }
  }

  /** Taking an object out of the live objects lowers exactly its own counter's tally. */
  lemma {:induction false} TallyRemove(hs: seq<Ptr>, i: nat)
    requires i < |hs|
    ensures Tally(Remove(hs, i)) == Drop(Tally(hs), hs[i].rc)
    decreases |hs|
  {
    var n := |hs| - 1;
    var init := hs[..n];
    var last := hs[n];
    TallyPositive(init);
    if i == n {
      RemoveLast(hs);
      DropBump(Tally(init), last.rc);
    } else {
      assert Remove(hs, i) == Remove(init, i) + [last];
      TallyRemove(init, i);
      TallySnoc(Remove(init, i), last);
      assert hs[i] in init;
      if hs[i].rc.Some? {
        TallyHas(init, hs[i]);
      }
      BumpDropCommute(Tally(init), last.rc, hs[i].rc);
    }
  }

  /** Overwriting an object moves one unit of tally from its old counter to its new one. */
  lemma {:induction false} TallyUpdate(hs: seq<Ptr>, i: nat, x: Ptr)
    requires i < |hs|
    ensures Tally(hs[i := x]) == Bump(Drop(Tally(hs), hs[i].rc), x.rc)
    decreases |hs|
  {
    var n := |hs| - 1;
    var init := hs[..n];
    var last := hs[n];
    TallyPositive(init);
    TallyPositive(hs);
    if i == n {
      assert hs[i := x] == init + [x];
      TallySnoc(init, x);
      RemoveLast(hs);
      TallyRemove(hs, n);
    } else {
      assert hs[i := x] == init[i := x] + [last];
      TallyUpdate(init, i, x);
      TallySnoc(init[i := x], last);
      assert hs[i] in init;
      if hs[i].rc.Some? {
        TallyHas(init, hs[i]);
      }
      var m := Tally(init);
      DropPositive(m, hs[i].rc);
      BumpCommute(Drop(m, hs[i].rc), x.rc, last.rc);
      BumpDropCommute(m, last.rc, hs[i].rc);
    }
  }

  // ---------------------------------------------------------------------------------------
  // What the invariant says about one live object

  /** A live object's counter, when non-null, is live and positive and holds the number of
      live objects sharing it; its value, if non-null and counted, is live. */
  lemma LiveObject(s: State, p: Ptr)
    requires Inv(s) && p in s.handles
    ensures p.rc.Some? ==> p.rc.value in s.heap.counts && s.heap.counts[p.rc.value] >= 1
    ensures p.rc.Some? ==> s.heap.counts[p.rc.value] == Count(s.handles, p.rc.value)
    ensures p.rc.Some? && p.val.Some? ==> p.val.value in s.heap.values
  {
    if p.rc.Some? {
      TallyHas(s.handles, p);
      TallyPositive(s.handles);
      TallyIsCount(s.handles, p.rc.value);
    }
  }

  /** The counting invariant in words: every live counter holds the number of live objects
      that share it, which is at least one, and a block that is not live is used by none. */
  lemma CountsLiveObjects(s: State, b: BlockId)
    requires Inv(s)
    ensures b in s.heap.counts ==> s.heap.counts[b] == Count(s.handles, b) && s.heap.counts[b] >= 1
    ensures b !in s.heap.counts ==> Count(s.handles, b) == 0
  {
    TallyPositive(s.handles);
    TallyIsCount(s.handles, b);
  }

  // ---------------------------------------------------------------------------------------
  // Sharing facts about collections of objects

  lemma SubInv(small: seq<Ptr>, big: seq<Ptr>)
    requires Agree(big) && Disjoint(big) && forall q | q in small :: q in big
    ensures Agree(small) && Disjoint(small)
  {
  }

  /** A new object with a counter no other object uses, managing a value no counted object manages. */
  lemma SnocFresh(hs: seq<Ptr>, x: Ptr)
    requires Agree(hs) && Disjoint(hs)
    requires forall q | q in hs :: q.rc != x.rc
    requires forall q | q in hs && q.rc.Some? :: q.val != x.val || x.val.None?
    ensures Agree(hs + [x]) && Disjoint(hs + [x])
  {
    assert forall q | q in hs + [x] :: q in hs || q == x;
  }

  // ---------------------------------------------------------------------------------------
  // Each transition keeps the invariant

  lemma InitInv()
    ensures Inv(Init())
  {
  }

  lemma NewValuePreserves(s: State)
    requires Inv(s)
    ensures Inv(NewValue(s).0)
    ensures Unowned(NewValue(s).0, Some(NewValue(s).1))
  {
  }

  /** `shared_ptr()`: nothing is counted, nothing changes on the heap. */
  lemma MakeEmptyPreserves(s: State)
    requires Inv(s)
    ensures Inv(MakeEmpty(s))
    ensures MakeEmpty(s).heap == s.heap
  {
    TallySnoc(s.handles, Ptr(None, None));
  }

  /** `shared_ptr(p)`: a fresh counter block with count exactly 1, even when `p` is null;
      every other counter is unchanged. */
  lemma MakeRawPreserves(s: State, p: Option<Addr>)
    requires Inv(s) && Unowned(s, p)
    ensures MakeRaw(s, p).Success?
    ensures var s' := MakeRaw(s, p).value;
      && Inv(s')
      && var b := s'.handles[|s.handles|].rc.value;
      && s'.handles == s.handles + [Ptr(p, Some(b))]
      && b !in s.heap.counts && b !in s.heap.freedBlocks
      && s'.heap.counts == s.heap.counts[b := 1]
      && s'.heap.values == s.heap.values && s'.heap.freedValues == s.heap.freedValues
      && Count(s'.handles, b) == 1
  {
    var b := s.heap.nextBlock;
    var s' := MakeRaw(s, p).value;
    var x := Ptr(p, Some(b));
    assert s'.handles == s.handles + [x];
    TallySnoc(s.handles, x);
    forall q | q in s.handles
      ensures q.rc != Some(b)
    {
      if q.rc.Some? {
        TallyHas(s.handles, q);
      }
    }
    SnocFresh(s.handles, x);
    TallyIsCount(s'.handles, b);
  }

  /** Copy construction aliases handle `i` and raises its counter by exactly one;
      an object with a null counter is copied with no heap change. */
  lemma CopyPreserves(s: State, i: nat)
    requires Inv(s) && i < |s.handles|
    ensures Copy(s, i).Success?
    ensures var s' := Copy(s, i).value;
      && Inv(s')
      && s'.handles == s.handles + [s.handles[i]]
      && (s.handles[i].rc.None? ==> s'.heap == s.heap)
      && (s.handles[i].rc.Some? ==>
            var b := s.handles[i].rc.value;
            && b in s.heap.counts
            && s'.heap == s.heap.(counts := s.heap.counts[b := s.heap.counts[b] + 1]))
  {
    var p := s.handles[i];
    assert p in s.handles;
    if p.rc.Some? {
      LiveObject(s, p);
    }
    TallySnoc(s.handles, p);
    assert forall q | q in s.handles + [p] :: q in s.handles;
  }

  /** The destructor's effect on the heap, when the object's counter and value are live. */
  lemma ReleaseEffect(h: Heap, p: Ptr)
    requires p.rc.Some? ==> p.rc.value in h.counts && h.counts[p.rc.value] >= 1
    requires p.rc.Some? && p.val.Some? && h.counts[p.rc.value] == 1 ==> p.val.value in h.values
    ensures Release(h, p).Success?
    ensures Release(h, p).value.counts == Drop(h.counts, p.rc)
    ensures p.rc.None? ==> Release(h, p).value == h
    ensures p.rc.Some? && h.counts[p.rc.value] != 1 ==>
      var b := p.rc.value;
      Release(h, p).value == h.(counts := h.counts[b := h.counts[b] - 1])
    ensures p.rc.Some? && h.counts[p.rc.value] == 1 ==>
      var b := p.rc.value;
      var h' := Release(h, p).value;
      && h'.counts == h.counts - {b}
      && h'.freedBlocks == h.freedBlocks + [b]
      && h'.nextBlock == h.nextBlock && h'.nextAddr == h.nextAddr
      && (p.val.None? ==> h'.values == h.values && h'.freedValues == h.freedValues)
      && (p.val.Some? ==>
            h'.values == h.values - {p.val.value} && h'.freedValues == h.freedValues + [p.val.value])
    ensures var h' := Release(h, p).value;
      && h'.values == h.values - (if DeletesValue(h, p) then {p.val.value} else {})
      && h'.freedValues == h.freedValues + (if DeletesValue(h, p) then [p.val.value] else [])
  {
  }

  /** Destruction takes the object out of the live handles and lowers its counter by one;
      on the transition to zero the value (if non-null) and the counter are deleted. */
  lemma DestroyPreserves(s: State, i: nat)
    requires Inv(s) && i < |s.handles|
    ensures Destroy(s, i).Success?
    ensures var s' := Destroy(s, i).value;
      && Inv(s')
      && s'.handles == Remove(s.handles, i)
      && Release(s.heap, s.handles[i]) == Success(s'.heap)
      && s'.heap.values <= s.heap.values
  {
    var p := s.handles[i];
    var rest := Remove(s.handles, i);
    assert p in s.handles;
    if p.rc.Some? {
      LiveObject(s, p);
    }
    ReleaseEffect(s.heap, p);
    TallyRemove(s.handles, i);
    RemoveSubset(s.handles, i);
    SubInv(rest, s.handles);
    DestroyLinked(s, i);
    DestroyBookkept(s, i);
  }

  lemma DestroyLinked(s: State, i: nat)
    requires Inv(s) && i < |s.handles|
    requires Destroy(s, i).Success?
    ensures Linked(Destroy(s, i).value)
  {
    var p := s.handles[i];
    var rest := Remove(s.handles, i);
    assert p in s.handles;
    if p.rc.Some? {
      LiveObject(s, p);
    }
    ReleaseEffect(s.heap, p);
    var s' := Destroy(s, i).value;
    assert forall q | q in rest :: q in s.handles;
    if p.rc.Some? && s.heap.counts[p.rc.value] == 1 && p.val.Some? {
      forall q | q in rest && q.rc.Some? && q.val.Some?
        ensures q.val.value in s'.heap.values
      {
        if q.rc == p.rc {
          CountRemove(s.handles, i, p.rc.value);
          CountZero(rest, p.rc.value);
        }
      }
    }
  }

  /** Taking an object out of the live objects lowers exactly its own block's count by one. */
  lemma CountRemove(hs: seq<Ptr>, i: nat, b: BlockId)
    requires i < |hs|
    ensures Count(hs, b) == Count(Remove(hs, i), b) + (if hs[i].rc == Some(b) then 1 else 0)
  {
    var m := Tally(hs);
    TallyRemove(hs, i);
    TallyIsCount(hs, b);
    TallyIsCount(Remove(hs, i), b);
    TallyPositive(hs);
    if hs[i].rc == Some(b) {
      assert hs[i] in hs;
      TallyHas(hs, hs[i]);
      assert m[b] >= 1;
    } else if hs[i].rc.Some? {
      var c := hs[i].rc.value;
      assert c != b;
      assert b in Drop(m, hs[i].rc) <==> b in m;
      assert b in m ==> Drop(m, hs[i].rc)[b] == m[b];
    }
  }

  lemma DestroyBookkept(s: State, i: nat)
    requires Inv(s) && i < |s.handles|
    requires Destroy(s, i).Success?
    ensures Bookkept(Destroy(s, i).value.heap)
  {
    var p := s.handles[i];
    assert p in s.handles;
    if p.rc.Some? {
      LiveObject(s, p);
    }
    ReleaseEffect(s.heap, p);
    if p.rc.Some? && s.heap.counts[p.rc.value] == 1 {
      var b := p.rc.value;
      NoDupAppend(s.heap.freedBlocks, b);
      if p.val.Some? {
        NoDupAppend(s.heap.freedValues, p.val.value);
      }
    }
  }

  /** Destroying one of several owners of a counter only lowers that counter by one. */
  lemma DestroyShared(s: State, i: nat)
    requires Inv(s) && i < |s.handles|
    requires s.handles[i].rc.Some? && s.handles[i].rc.value in s.heap.counts
    requires s.heap.counts[s.handles[i].rc.value] > 1
    ensures Destroy(s, i).Success?
    ensures var b := s.handles[i].rc.value;
      var s' := Destroy(s, i).value;
      && Inv(s') && s'.handles == Remove(s.handles, i)
      && s'.heap == s.heap.(counts := s.heap.counts[b := s.heap.counts[b] - 1])
  {
    DestroyPreserves(s, i);
    ReleaseEffect(s.heap, s.handles[i]);
  }

  /** `swap` exchanges two objects and changes no counter. */
  lemma SwapPreserves(s: State, i: nat, j: nat)
    requires Inv(s) && i < |s.handles| && j < |s.handles|
    ensures var s' := Swap(s, i, j);
      && Inv(s')
      && s'.heap == s.heap
      && s'.handles[i] == s.handles[j] && s'.handles[j] == s.handles[i]
      && forall k | 0 <= k < |s.handles| && k != i && k != j :: s'.handles[k] == s.handles[k]
  {
    var hs := s.handles;
    var s2 := hs[i := hs[j]][j := hs[i]];
    assert Swap(s, i, j).handles == s2;
    SwapCounted(hs, i, j);
    UpdateSubset(hs, i, hs[j]);
    UpdateSubset(hs[i := hs[j]], j, hs[i]);
    assert hs[i] in hs && hs[j] in hs;
    assert forall q | q in s2 :: q in hs;
    SubInv(s2, hs);
  }

  /** Exchanging two live objects leaves the tally as it was. */
  lemma SwapCounted(hs: seq<Ptr>, i: nat, j: nat)
    requires i < |hs| && j < |hs|
    ensures Tally(hs[i := hs[j]][j := hs[i]]) == Tally(hs)
  {
    var s1 := hs[i := hs[j]];
    var s2 := s1[j := hs[i]];
    if i != j {
      assert s1[j] == hs[j];
      TallyPositive(hs);
      TallyUpdate(hs, i, hs[j]);
      TallyUpdate(s1, j, hs[i]);
      var m := Tally(hs);
      assert hs[i] in hs && hs[j] in hs;
      if hs[i].rc.Some? {
        TallyHas(hs, hs[i]);
      }
      if hs[j].rc.Some? {
        TallyHas(hs, hs[j]);
      }
      DropPositive(m, hs[i].rc);
      BumpPositive(Drop(m, hs[i].rc), hs[j].rc);
      DropBump(Drop(m, hs[i].rc), hs[j].rc);
      BumpDrop(m, hs[i].rc);
      assert Tally(s1) == Bump(Drop(m, hs[i].rc), hs[j].rc);
      assert Tally(s2) == Bump(Drop(Tally(s1), hs[j].rc), hs[i].rc);
    } else {
      assert s2 == hs;
    }
  }

  /** `set(p)` under its caller contract keeps the invariant and touches no counter. */
  lemma SetPreserves(s: State, i: nat, p: Option<Addr>)
    requires Inv(s) && i < |s.handles| && SetAllowed(s, i, p)
    ensures Inv(Set(s, i, p))
  {
    SetCounted(s, i, p);
    SetShares(s, i, p);
  }

  lemma SetCounted(s: State, i: nat, p: Option<Addr>)
    requires Inv(s) && i < |s.handles|
    ensures Counted(Set(s, i, p))
  {
    var hs := s.handles;
    TallyPositive(hs);
    TallyUpdate(hs, i, hs[i].(val := p));
    if hs[i].rc.Some? {
      assert hs[i] in hs;
      TallyHas(hs, hs[i]);
    }
    BumpDrop(Tally(hs), hs[i].rc);
  }

  lemma SetShares(s: State, i: nat, p: Option<Addr>)
    requires Inv(s) && i < |s.handles| && SetAllowed(s, i, p)
    ensures Linked(Set(s, i, p)) && Agree(Set(s, i, p).handles) && Disjoint(Set(s, i, p).handles)
  {
    var hs := s.handles;
    var x := hs[i].(val := p);
    var rest := Remove(hs, i);
    UpdateElements(hs, i, x);
    assert forall q | q in rest :: q in hs;
    if x.rc.Some? {
      AloneAfterSet(hs, i);
    }
  }

  /** An object whose counter counts one owner shares it with no other object. */
  lemma AloneAfterSet(hs: seq<Ptr>, i: nat)
    requires i < |hs| && hs[i].rc.Some? && Count(hs, hs[i].rc.value) == 1
    ensures forall q | q in Remove(hs, i) :: q.rc != hs[i].rc
  {
    CountRemove(hs, i, hs[i].rc.value);
    CountZero(Remove(hs, i), hs[i].rc.value);
  }
}

/** Assignment, equality and whole-lifetime properties of `shared_ptr`. */
module SharedPtrLifetime {
  import opened Wrappers
  import opened Seqs
  import opened SharedPtr
  import opened SharedPtrProofs

  /** Copy-and-swap assignment keeps the invariant, makes object `i` an alias of object `j`,
      and on the heap amounts to: first count the right-hand side once more, then release
      the object's old counter (deleting it, and its value, if that was the last owner). */
  lemma AssignPreserves(s: State, i: nat, j: nat)
    requires Inv(s) && i < |s.handles| && j < |s.handles|
    ensures Assign(s, i, j).Success?
    ensures var s' := Assign(s, i, j).value;
      && Inv(s')
      && s'.handles == s.handles[i := s.handles[j]]
      && IncRef(s.heap, s.handles[j].rc).Success?
      && Release(IncRef(s.heap, s.handles[j].rc).value, s.handles[i]) == Success(s'.heap)
      && s'.heap.values <= s.heap.values
  {
    var hs := s.handles;
    LiveObject(s, s.handles[j]);
    CopyPreserves(s, j);
    var s1 := Copy(s, j).value;
    var t := |hs|;
    SwapPreserves(s1, i, t);
    var s2 := Swap(s1, i, t);
    DestroyPreserves(s2, t);
    AssignSteps(s, i, j);
    AssignHandles(hs, i, j);
  }

  /** Assignment unfolded: copy the right-hand side into a temporary, swap, destroy the temporary. */
  lemma AssignSteps(s: State, i: nat, j: nat)
    requires i < |s.handles| && j < |s.handles|
    requires IncRef(s.heap, s.handles[j].rc).Success?
    ensures Copy(s, j) == Success(State(IncRef(s.heap, s.handles[j].rc).value, s.handles + [s.handles[j]]))
    ensures Assign(s, i, j) == Destroy(Swap(Copy(s, j).value, i, |s.handles|), |s.handles|)
  {
  }

  lemma AssignHandles(hs: seq<Ptr>, i: nat, j: nat)
    requires i < |hs| && j < |hs|
    ensures var t := |hs|;
      Remove((hs + [hs[j]])[i := hs[j]][t := hs[i]], t) == hs[i := hs[j]]
  {
    var t := |hs|;
    RemoveLast((hs + [hs[j]])[i := hs[j]][t := hs[i]]);
    assert (hs + [hs[j]])[i := hs[j]][t := hs[i]][..t] == hs[i := hs[j]];
  }

  /** Assigning from a temporary that holds the only reference to a fresh counter, then
      destroying the temporary: the object ends up the sole owner of that counter (count 1),
      and its old counter is released. */
  lemma AssignFromTemporary(s: State, i: nat, t: nat)
    requires Inv(s) && i < t && t == |s.handles| - 1
    requires s.handles[t].rc.Some? && s.handles[t].rc != s.handles[i].rc
    requires s.heap.counts[s.handles[t].rc.value] == 1
    ensures Assign(s, i, t).Success? && Destroy(Assign(s, i, t).value, t).Success?
    ensures var f := s.handles[t];
      var b := f.rc.value;
      var prev := s.handles[i];
      var s' := Destroy(Assign(s, i, t).value, t).value;
      && Inv(s')
      && s'.handles == s.handles[..t][i := f]
      && s'.heap.values <= s.heap.values
      && b in s'.heap.counts && s'.heap.counts[b] == 1
      && (prev.rc.Some? && s.heap.counts[prev.rc.value] > 1 ==>
            && prev.rc.value in s'.heap.counts
            && s'.heap.counts[prev.rc.value] == s.heap.counts[prev.rc.value] - 1)
      && (prev.rc.Some? && s.heap.counts[prev.rc.value] == 1 ==>
            prev.rc.value !in s'.heap.counts && prev.rc.value in s'.heap.freedBlocks)
      && (prev.rc.Some? && prev.val.Some? && s.heap.counts[prev.rc.value] == 1 ==>
            prev.val.value !in s'.heap.values && prev.val.value in s'.heap.freedValues)
      && s'.heap.values == s.heap.values - (if DeletesValue(s.heap, prev) then {prev.val.value} else {})
      && s'.heap.freedValues == s.heap.freedValues + (if DeletesValue(s.heap, prev) then [prev.val.value] else [])
  {
    var f := s.handles[t];
    LiveObject(s, s.handles[i]);
    AssignPreserves(s, i, t);
    AssignOther(s, i, t);
    var s2 := Assign(s, i, t).value;
    assert s2.handles[t] == f;
    AssignReleasesTarget(s, i, t, s2);
    DropTemporary(s2, t, f.rc.value);
    TemporaryGone(s.handles, i);
  }

  /** Assigning from an object on another counter deletes exactly what destroying the
      target would delete: bumping the source's count does not touch the target's counter. */
  lemma AssignReleasesTarget(s: State, i: nat, j: nat, s': State)
    requires Inv(s) && i < |s.handles| && j < |s.handles| && s.handles[j].rc != s.handles[i].rc
    requires Assign(s, i, j) == Success(s')
    ensures var prev := s.handles[i];
      && s'.heap.values == s.heap.values - (if DeletesValue(s.heap, prev) then {prev.val.value} else {})
      && s'.heap.freedValues == s.heap.freedValues + (if DeletesValue(s.heap, prev) then [prev.val.value] else [])
  {
    var prev := s.handles[i];
    LiveObject(s, prev);
    AssignPreserves(s, i, j);
    var h1 := IncRef(s.heap, s.handles[j].rc).value;
    assert DeletesValue(h1, prev) == DeletesValue(s.heap, prev);
    ReleaseEffect(h1, prev);
  }

  /** `x = shared_ptr(p)`: a temporary owning `p` through a fresh counter is assigned to
      object `i` and then destroyed. Object `i` ends up the sole owner of `p` through that
      counter, its old counter is released (deleting it and its value when `i` was the last
      owner), and no other object changes. */
  lemma ResetFresh(s: State, i: nat, p: Option<Addr>, n: nat)
    requires Inv(s) && Unowned(s, p) && i < n && n == |s.handles|
    ensures MakeRaw(s, p).Success?
    ensures Assign(MakeRaw(s, p).value, i, n).Success?
    ensures Destroy(Assign(MakeRaw(s, p).value, i, n).value, n).Success?
    ensures var s' := Destroy(Assign(MakeRaw(s, p).value, i, n).value, n).value;
      var b := s'.handles[i].rc.value;
      var prev := s.handles[i];
      && Inv(s')
      && s'.handles == s.handles[i := Ptr(p, Some(b))]
      && s'.heap.values <= s.heap.values
      && b !in s.heap.counts && b in s'.heap.counts && s'.heap.counts[b] == 1
      && (prev.rc.Some? ==> prev.rc.value in s.heap.counts)
      && (prev.rc.Some? && s.heap.counts[prev.rc.value] > 1 ==>
            && prev.rc.value in s'.heap.counts
            && s'.heap.counts[prev.rc.value] == s.heap.counts[prev.rc.value] - 1)
      && (prev.rc.Some? && s.heap.counts[prev.rc.value] == 1 ==>
            prev.rc.value !in s'.heap.counts && prev.rc.value in s'.heap.freedBlocks)
      && (prev.rc.Some? && prev.val.Some? && s.heap.counts[prev.rc.value] == 1 ==>
            prev.val.value !in s'.heap.values && prev.val.value in s'.heap.freedValues)
      && s'.heap.values == s.heap.values - (if DeletesValue(s.heap, prev) then {prev.val.value} else {})
      && s'.heap.freedValues == s.heap.freedValues + (if DeletesValue(s.heap, prev) then [prev.val.value] else [])
  {
    LiveObject(s, s.handles[i]);
    MakeRawPreserves(s, p);
    var s1 := MakeRaw(s, p).value;
    var b := s1.handles[n].rc.value;
    assert s1.handles[..n] == s.handles && s1.handles[i] == s.handles[i];
    assert prev_kept: s.handles[i].rc.Some? ==>
      s.handles[i].rc.value in s1.heap.counts
      && s1.heap.counts[s.handles[i].rc.value] == s.heap.counts[s.handles[i].rc.value];
    AssignFromTemporary(s1, i, n);
  }

  /** Destroying the last object, which shares its counter with exactly one other object. */
  lemma DropTemporary(s: State, t: nat, b: BlockId)
    requires Inv(s) && t == |s.handles| - 1
    requires s.handles[t].rc == Some(b) && b in s.heap.counts && s.heap.counts[b] == 2
    ensures Destroy(s, t).Success?
    ensures var s' := Destroy(s, t).value;
      && Inv(s')
      && s'.handles == Remove(s.handles, t)
      && s'.heap == s.heap.(counts := s.heap.counts[b := 1])
  {
    DestroyShared(s, t);
  }

  lemma TemporaryGone(hs: seq<Ptr>, i: nat)
    requires i < |hs| - 1
    ensures var n := |hs| - 1;
      Remove(hs[i := hs[n]], n) == hs[..n][i := hs[n]]
  {
    var n := |hs| - 1;
    RemoveLast(hs[i := hs[n]]);
    assert hs[i := hs[n]][..n] == hs[..n][i := hs[n]];
  }

  /** Self-assignment, and more generally assigning an object that already aliases the
      same counter and value, changes nothing at all. */
  lemma AssignSelfNoop(s: State, i: nat, j: nat)
    requires Inv(s) && i < |s.handles| && j < |s.handles|
    requires s.handles[i] == s.handles[j]
    ensures Assign(s, i, j) == Success(s)
  {
    var hs := s.handles;
    AssignPreserves(s, i, j);
    assert hs[i := hs[j]] == hs;
    var p := hs[i];
    if p.rc.Some? {
      LiveObject(s, s.handles[i]);
      BumpThenRelease(s.heap, p);
    }
  }

  /** Adding a reference to a live counter and releasing it again restores the heap. */
  lemma BumpThenRelease(h: Heap, p: Ptr)
    requires p.rc.Some? && p.rc.value in h.counts && h.counts[p.rc.value] >= 1
    ensures IncRef(h, p.rc).Success? && Release(IncRef(h, p.rc).value, p) == Success(h)
  {
    var b := p.rc.value;
    var h1 := IncRef(h, p.rc).value;
    ReleaseEffect(h1, p);
    assert h1.counts[b := h1.counts[b] - 1] == h.counts;
  }

  /** Assigning an object of a different counter: the right-hand side's counter goes up by one,
      the old counter goes down by one and, if it reaches zero, it and its value are deleted;
      every other counter is unchanged. */
  lemma AssignOther(s: State, i: nat, j: nat)
    requires Inv(s) && i < |s.handles| && j < |s.handles|
    requires s.handles[i].rc != s.handles[j].rc
    ensures Assign(s, i, j).Success?
    ensures var s' := Assign(s, i, j).value;
      var prev := s.handles[i];
      var rhs := s.handles[j];
      && (rhs.rc.Some? ==>
            && rhs.rc.value in s'.heap.counts
            && s'.heap.counts[rhs.rc.value] == s.heap.counts[rhs.rc.value] + 1)
      && (prev.rc.Some? && s.heap.counts[prev.rc.value] > 1 ==>
            && prev.rc.value in s'.heap.counts
            && s'.heap.counts[prev.rc.value] == s.heap.counts[prev.rc.value] - 1)
      && (prev.rc.Some? && s.heap.counts[prev.rc.value] == 1 ==>
            && prev.rc.value !in s'.heap.counts
            && prev.rc.value in s'.heap.freedBlocks
            && (prev.val.Some? ==> prev.val.value !in s'.heap.values && prev.val.value in s'.heap.freedValues))
      && (forall c | c in s.heap.counts && Some(c) != prev.rc && Some(c) != rhs.rc ::
            c in s'.heap.counts && s'.heap.counts[c] == s.heap.counts[c])
  {
    var hs := s.handles;
    AssignPreserves(s, i, j);
    LiveObject(s, s.handles[i]);
    LiveObject(s, s.handles[j]);
    IncThenRelease(s.heap, hs[i], hs[j]);
  }

  /** The heap half of AssignOther: count `y` once more, then release `x`. */
  lemma IncThenRelease(h: Heap, x: Ptr, y: Ptr)
    requires x.rc != y.rc
    requires x.rc.Some? ==> x.rc.value in h.counts && h.counts[x.rc.value] >= 1
    requires y.rc.Some? ==> y.rc.value in h.counts
    requires x.rc.Some? && x.val.Some? && h.counts[x.rc.value] == 1 ==> x.val.value in h.values
    ensures IncRef(h, y.rc).Success? && Release(IncRef(h, y.rc).value, x).Success?
    ensures var h' := Release(IncRef(h, y.rc).value, x).value;
      && (y.rc.Some? ==> y.rc.value in h'.counts && h'.counts[y.rc.value] == h.counts[y.rc.value] + 1)
      && (x.rc.Some? && h.counts[x.rc.value] != 1 ==>
            x.rc.value in h'.counts && h'.counts[x.rc.value] == h.counts[x.rc.value] - 1)
      && (x.rc.Some? && h.counts[x.rc.value] == 1 ==>
            && x.rc.value !in h'.counts
            && x.rc.value in h'.freedBlocks
            && (x.val.Some? ==> x.val.value !in h'.values && x.val.value in h'.freedValues))
      && (forall c | c in h.counts && Some(c) != x.rc && Some(c) != y.rc ::
            c in h'.counts && h'.counts[c] == h.counts[c])
  {
    var h1 := IncRef(h, y.rc).value;
    ReleaseEffect(h1, x);
  }

  /** `!=` is the negation of `==`, objects sharing a counter return the same `get()`, and
      for counted objects with a non-null value `==` (address equality) holds exactly when
      the two objects share one counter. */
  lemma EqualityIsSharing(s: State, x: Ptr, y: Ptr)
    requires Inv(s) && x in s.handles && y in s.handles
    ensures NotEqual(x, y) <==> !Equal(x, y)
    ensures x.rc.Some? && x.rc == y.rc ==> Get(x) == Get(y)
    ensures x.rc.Some? && y.rc.Some? && x.val.Some? ==> (Equal(x, y) <==> x.rc == y.rc)
  {
  }

  /** A copy compares equal to its source and `get()` returns the same address. */
  lemma CopyIsEqual(s: State, i: nat)
    requires Inv(s) && i < |s.handles|
    ensures Copy(s, i).Success?
    ensures var s' := Copy(s, i).value;
      Equal(s'.handles[|s.handles|], s.handles[i]) && Get(s'.handles[|s.handles|]) == Get(s.handles[i])
  {
    CopyPreserves(s, i);
  }

  /** Misusing `set` on an aliased object breaks the invariant: the two aliases now disagree
      about the value their shared counter owns. */
  lemma SetOnAliasBreaksInvariant()
    ensures var (s0, a) := NewValue(Init());
      var s1 := MakeRaw(s0, Some(a)).value;
      var s2 := Copy(s1, 0).value;
      var (s3, a2) := NewValue(s2);
      !Agree(Set(s3, 1, Some(a2)).handles)
  {
    var (s0, a) := NewValue(Init());
    var s1 := MakeRaw(s0, Some(a)).value;
    var s2 := Copy(s1, 0).value;
    var (s3, a2) := NewValue(s2);
    var s4 := Set(s3, 1, Some(a2));
    assert s4.handles[0] in s4.handles && s4.handles[1] in s4.handles;
  }

  // ---------------------------------------------------------------------------------------
  // Freed exactly once

  /** Destroying every live object deletes every counter ever allocated exactly once, and
      deletes every value managed by a counter exactly once. A live value survives exactly
      when no object with a counter manages it. */
  lemma {:induction false} DestroyAllFreesOnce(s: State)
    requires Inv(s)
    ensures DestroyAll(s).Success?
    ensures var s' := DestroyAll(s).value;
      && Inv(s') && s'.handles == [] && s'.heap.counts == map[]
      && s'.heap.nextBlock == s.heap.nextBlock
      && (forall b: nat | b < s.heap.nextBlock :: multiset(s'.heap.freedBlocks)[b] == 1)
      && (forall a | a in s.heap.freedValues :: a in s'.heap.freedValues)
      && (forall p | p in s.handles && p.rc.Some? && p.val.Some? ::
            multiset(s'.heap.freedValues)[p.val.value] == 1)
      && s'.heap.values <= s.heap.values
      && (forall a | a in s.heap.values :: a in s'.heap.values <==> Unowned(s, Some(a)))
    decreases |s.handles|
  {
    if |s.handles| == 0 {
      forall b: nat | b < s.heap.nextBlock
        ensures multiset(s.heap.freedBlocks)[b] == 1
      {
        NoDupOnce(s.heap.freedBlocks, b);
      }
    } else {
      var t := |s.handles| - 1;
      DestroyPreserves(s, t);
      var s1 := Destroy(s, t).value;
      var p := s.handles[t];
      LiveObject(s, s.handles[t]);
      ReleaseEffect(s.heap, p);
      DestroyAllFreesOnce(s1);
      var s' := DestroyAll(s).value;
      assert s' == DestroyAll(s1).value;
      forall q | q in s.handles && q.rc.Some? && q.val.Some?
        ensures multiset(s'.heap.freedValues)[q.val.value] == 1
      {
        DestroyedValueFreed(s, s1, s', q);
        NoDupOnce(s'.heap.freedValues, q.val.value);
      }
      forall a | a in s.heap.values && Unowned(s, Some(a))
        ensures a in s'.heap.values
      {
        UnownedSurvivesDestroy(s, s1, a);
      }
    }
  }

  /** A value that no object with a counter manages is still live, and still unowned, after
      the last object is destroyed. */
  lemma UnownedSurvivesDestroy(s: State, s1: State, a: Addr)
    requires Inv(s) && |s.handles| > 0
    requires Destroy(s, |s.handles| - 1) == Success(s1)
    requires Unowned(s, Some(a))
    ensures Unowned(s1, Some(a))
  {
    var t := |s.handles| - 1;
    var p := s.handles[t];
    DestroyPreserves(s, t);
    LiveObject(s, p);
    ReleaseEffect(s.heap, p);
    RemoveLast(s.handles);
    assert forall q | q in s1.handles :: q in s.handles;
  }

  /** The step of DestroyAllFreesOnce for values: a value managed before the last object is
      destroyed is deleted by that destruction or still managed by an object that remains. */
  lemma DestroyedValueFreed(s: State, s1: State, s': State, q: Ptr)
    requires Inv(s) && |s.handles| > 0
    requires Destroy(s, |s.handles| - 1) == Success(s1)
    requires forall a | a in s1.heap.freedValues :: a in s'.heap.freedValues
    requires forall p | p in s1.handles && p.rc.Some? && p.val.Some? ::
      multiset(s'.heap.freedValues)[p.val.value] == 1
    requires q in s.handles && q.rc.Some? && q.val.Some?
    ensures q.val.value in s'.heap.freedValues
  {
    var t := |s.handles| - 1;
    var p := s.handles[t];
    var rest := Remove(s.handles, t);
    RemoveElements(s.handles, t);
    LiveObject(s, s.handles[t]);
    ReleaseEffect(s.heap, p);
    if q in rest {
      assert multiset(s'.heap.freedValues)[q.val.value] == 1;
    } else {
      assert q == p by {
        assert multiset(s.handles) == multiset(rest) + multiset{p};
        assert q in multiset(s.handles);
      }
      var b := q.rc.value;
      forall r | r in rest
        ensures r.rc != Some(b)
      {
        assert r in s.handles;
      }
      CountZero(rest, b);
      CountRemove(s.handles, t, b);
    }
  }

  lemma PrefixOfPrefix(a: seq<Ptr>, b: seq<Ptr>, c: seq<Ptr>)
    requires |c| <= |b| <= |a| && a[..|b|] == b && b[..|c|] == c
    ensures a[..|c|] == c
  {
    assert a[..|c|] == a[..|b|][..|c|];
  }

  /** `n` further copies of object `i`. */
  function CopyTimes(s: State, i: nat, n: nat): Result<State, Fault>
    requires i < |s.handles|
    decreases n
  {
    if n == 0 then Success(s)
    else
      var s1 :- Copy(s, i);
      CopyTimes(s1, i, n - 1)
  }

  lemma CopyTimesStep(s: State, i: nat, n: nat)
    requires i < |s.handles| && n > 0 && Copy(s, i).Success?
    ensures CopyTimes(s, i, n) == CopyTimes(Copy(s, i).value, i, n - 1)
  {
  }

  /** Copying an object `n` times raises its counter by exactly `n`. */
  lemma {:induction false} CopyTimesCounts(s: State, i: nat, n: nat)
    requires Inv(s) && i < |s.handles| && s.handles[i].rc.Some?
    ensures CopyTimes(s, i, n).Success?
    ensures var s' := CopyTimes(s, i, n).value;
      var b := s.handles[i].rc.value;
      && Inv(s') && |s'.handles| == |s.handles| + n
      && s'.handles[..|s.handles|] == s.handles
      && b in s'.heap.counts && s'.heap.counts[b] == s.heap.counts[b] + n
    decreases n
  {
    LiveObject(s, s.handles[i]);
    if n > 0 {
      var m := |s.handles|;
      var b := s.handles[i].rc.value;
      assert Copy(s, i).Success? by {
        CopyPreserves(s, i);
      }
      var s1 := Copy(s, i).value;
      assert Inv(s1) && s1.handles == s.handles + [s.handles[i]]
        && b in s1.heap.counts && s1.heap.counts[b] == s.heap.counts[b] + 1 by {
        CopyPreserves(s, i);
      }
      assert s1.handles[i] == s.handles[i] && s1.handles[..m] == s.handles;
      CopyTimesStep(s, i, n);
      CopyTimesCounts(s1, i, n - 1);
      var s' := CopyTimes(s1, i, n - 1).value;
      PrefixOfPrefix(s'.handles, s1.handles, s.handles);
    }
  }

  /** A value handed to `shared_ptr`, copied `n` times, then outlived by every copy:
      the counter reaches `n + 1`, and the value and the counter are each deleted exactly once. */
  lemma CopiesThenDestroyFreesOnce(n: nat)
    ensures var (s0, a) := NewValue(Init());
      && MakeRaw(s0, Some(a)).Success?
      && var s1 := MakeRaw(s0, Some(a)).value;
      && CopyTimes(s1, 0, n).Success?
      && var s2 := CopyTimes(s1, 0, n).value;
      && s1.handles[0].rc.value in s2.heap.counts
      && s2.heap.counts[s1.handles[0].rc.value] == n + 1
      && DestroyAll(s2).Success?
      && var s3 := DestroyAll(s2).value;
      && s3.handles == [] && s3.heap.counts == map[]
      && multiset(s3.heap.freedValues)[a] == 1
      && multiset(s3.heap.freedBlocks)[s1.handles[0].rc.value] == 1
  {
    InitInv();
    var (s0, a) := NewValue(Init());
    NewValuePreserves(Init());
    MakeRawPreserves(s0, Some(a));
    var s1 := MakeRaw(s0, Some(a)).value;
    var p := s1.handles[0];
    CopyTimesCounts(s1, 0, n);
    var s2 := CopyTimes(s1, 0, n).value;
    assert p in s2.handles by {
      assert s2.handles[0] == p;
    }
    DestroyAllFreesOnce(s2);
  }
}

=== FILE: smartfun.dfy ===
/** The shared callable wrapper `smartfun<Result(Args...)>` of litefun.cpp.

    A `smartfun` has one member, `shared_ptr<smart_abstract_function<...>> f`, so the live
    `smartfun` objects are exactly the live `shared_ptr` objects of the SharedPtr model:
    wrapper `i` is handle `i`. Its managed values are implementation objects, and `tags`
    records the behaviour of the invocable each one wraps. Copies alias the implementation
    through the shared pointer instead of cloning it. */
module SmartFun {
  import opened Wrappers
  import opened Callable
  import SharedPtr

  datatype State = State(ptrs: SharedPtr.State, tags: map<SharedPtr.Addr, Tag>)

  function Init(): State {
    State(SharedPtr.Init(), map[])
  }

  /** `new smart_concrete_function<...>(x)` (lines 186-188): a fresh implementation object. */
  function NewImpl(s: State, t: Tag): (r: (State, SharedPtr.Addr))
    ensures r.0.tags == s.tags[r.1 := t]
    ensures SharedPtr.Bookkept(s.ptrs.heap) ==> r.1 !in s.ptrs.heap.values && r.1 !in s.ptrs.heap.freedValues
    ensures r.0.ptrs.heap.values == s.ptrs.heap.values + {r.1}
    ensures r.0.ptrs.handles == s.ptrs.handles && r.0.ptrs.heap.counts == s.ptrs.heap.counts
    ensures r.0.ptrs.heap.freedBlocks == s.ptrs.heap.freedBlocks
    ensures r.0.ptrs.heap.freedValues == s.ptrs.heap.freedValues
  {
    var c := SharedPtr.NewValue(s.ptrs);
    (State(c.0, s.tags[c.1 := t]), c.1)
  }

  /** `smartfun()` (lines 202-204): `f(nullptr)` selects the raw-pointer constructor of
      `shared_ptr`, so even an empty wrapper owns a counter block (with a null value). */
  function MakeEmpty(s: State): Result<State, SharedPtr.Fault> {
    var p :- SharedPtr.MakeRaw(s.ptrs, None);
    Success(s.(ptrs := p))
  }

  /** `smartfun(const Func &x)` (lines 206-209): a new implementation in a new `shared_ptr`. */
  function MakeFrom(s: State, t: Tag): Result<State, SharedPtr.Fault> {
    var c := NewImpl(s, t);
    var p :- SharedPtr.MakeRaw(c.0.ptrs, Some(c.1));
    Success(c.0.(ptrs := p))
  }

  /** Copy construction (lines 211-212): copy-constructs the `shared_ptr` member. */
  function Copy(s: State, i: nat): Result<State, SharedPtr.Fault>
    requires i < |s.ptrs.handles|
  {
    var p :- SharedPtr.Copy(s.ptrs, i);
    Success(s.(ptrs := p))
  }

  /** `fs[i] = fs[j]` (lines 214-219): unless it is the same object, assign the `shared_ptr`. */
  function Assign(s: State, i: nat, j: nat): Result<State, SharedPtr.Fault>
    requires i < |s.ptrs.handles| && j < |s.ptrs.handles|
  {
    if i != j then
      var p :- SharedPtr.Assign(s.ptrs, i, j);
      Success(s.(ptrs := p))
    else
      Success(s)
  }

  /** `fs[i] = x` for an invocable `x` (lines 221-226): a new implementation in a local
      `shared_ptr f2` (appended last while it lives), `f = f2`, then `f2` is destroyed. */
  function AssignFrom(s: State, i: nat, t: Tag): Result<State, SharedPtr.Fault>
    requires i < |s.ptrs.handles|
  {
    var c := NewImpl(s, t);
    var p1 :- SharedPtr.MakeRaw(c.0.ptrs, Some(c.1));
    var n := |p1.handles| - 1;
    var p2 :- SharedPtr.Assign(p1, i, n);
    var p3 :- SharedPtr.Destroy(p2, n);
    Success(c.0.(ptrs := p3))
  }

  /** `operator()` (lines 228-235): dispatch through `f.get()` when it is non-null,
      otherwise return `Result{}` (`default`). */
  function Call<A, R>(s: State, i: nat, apply: (Tag, A) -> R, args: A, default: R): Result<R, SharedPtr.Fault>
    requires i < |s.ptrs.handles|
  {
    match SharedPtr.Get(s.ptrs.handles[i])
    case None => Success(Dispatch(None, apply, args, default))
    case Some(a) =>
      if a in s.ptrs.heap.values && a in s.tags then Success(Dispatch(Some(s.tags[a]), apply, args, default))
      else Failure(SharedPtr.ValueFreed(a))
  }

  /** The implicit destructor of wrapper `i`: destroys its `shared_ptr` member (lines 28-35). */
  function Destroy(s: State, i: nat): Result<State, SharedPtr.Fault>
    requires i < |s.ptrs.handles|
  {
    var p :- SharedPtr.Destroy(s.ptrs, i);
    Success(s.(ptrs := p))
  }

  /** Every wrapper's `shared_ptr` was made by the raw-pointer constructor or copied from one,
      so it has a counter; every live implementation has a behaviour. This holds because the
      public member `f` is only touched through the wrapper's own operations. */
  ghost predicate Inv(s: State) {
    && SharedPtr.Inv(s.ptrs)
    && (forall p | p in s.ptrs.handles :: p.rc.Some?)
    && (forall a | a in s.ptrs.heap.values :: a in s.tags)
  }

  /** The behaviour wrapper `i` calls, `None` when its implementation pointer is null. */
  function Behaviour(s: State, i: nat): Option<Tag>
    requires Inv(s) && i < |s.ptrs.handles|
  {
    assert s.ptrs.handles[i] in s.ptrs.handles;
    match s.ptrs.handles[i].val
    case None => None
    case Some(a) => Some(s.tags[a])
  }
}

=== FILE: smartfun_proofs.dfy ===
/** Properties of `smartfun`: copies and assignments alias one implementation through the
    shared pointer and raise its count, an empty wrapper still owns a counter, and calls
    dispatch to the shared implementation or return `Result{}`. */
module SmartFunProofs {
  import opened Wrappers
  import opened Seqs
  import opened Callable
  import SharedPtr
  import opened SharedPtrProofs
  import opened SharedPtrLifetime
  import opened SmartFun

  lemma InitInv()
    ensures Inv(Init())
  {
    SharedPtrProofs.InitInv();
  }

  /** Calling dispatches to the behaviour of the shared implementation, and a wrapper whose
      `get()` is null returns the default result. */
  lemma CallContract<A, R>(s: State, i: nat, apply: (Tag, A) -> R, args: A, default: R)
    requires Inv(s) && i < |s.ptrs.handles|
    ensures Call(s, i, apply, args, default) == Success(Dispatch(Behaviour(s, i), apply, args, default))
    ensures SharedPtr.Get(s.ptrs.handles[i]).None? ==> Call(s, i, apply, args, default) == Success(default)
  {
    assert s.ptrs.handles[i] in s.ptrs.handles;
  }

  lemma NewImplPreserves(s: State, t: Tag)
    requires Inv(s)
    ensures var c := NewImpl(s, t);
      && Inv(c.0) && SharedPtr.Unowned(c.0.ptrs, Some(c.1))
      && c.0.ptrs.handles == s.ptrs.handles && c.0.ptrs.heap.counts == s.ptrs.heap.counts
      && c.0.ptrs.heap.freedBlocks == s.ptrs.heap.freedBlocks
      && (forall a | a in s.ptrs.heap.values :: a in c.0.tags && c.0.tags[a] == s.tags[a])
      && forall k | 0 <= k < |s.ptrs.handles| :: Behaviour(c.0, k) == Behaviour(s, k)
  {
    NewValuePreserves(s.ptrs);
    var c := NewImpl(s, t);
    forall k | 0 <= k < |s.ptrs.handles|
      ensures Behaviour(c.0, k) == Behaviour(s, k)
    {
      assert s.ptrs.handles[k] in s.ptrs.handles;
    }
  }

  /** `smartfun()` passes `nullptr` to the raw-pointer constructor: the new wrapper owns a
      fresh counter block of count 1 whose value is null, and calls as `Result{}`. */
  lemma MakeEmptyOwnsCounter(s: State)
    requires Inv(s)
    ensures MakeEmpty(s).Success?
    ensures var s' := MakeEmpty(s).value;
      var n := |s.ptrs.handles|;
      && Inv(s') && |s'.ptrs.handles| == n + 1
      && s'.ptrs.handles[n].val.None? && s'.ptrs.handles[n].rc.Some?
      && s'.ptrs.handles[n].rc.value !in s.ptrs.heap.counts
      && s'.ptrs.heap.counts[s'.ptrs.handles[n].rc.value] == 1
      && Behaviour(s', n) == None
  {
    MakeRawPreserves(s.ptrs, None);
    var s' := MakeEmpty(s).value;
    assert forall q | q in s'.ptrs.handles :: q in s.ptrs.handles || q == s'.ptrs.handles[|s.ptrs.handles|];
  }

  /** `smartfun(x)`: a fresh counter of count 1 managing a newly allocated implementation of `x`. */
  lemma MakeFromPreserves(s: State, t: Tag)
    requires Inv(s)
    ensures MakeFrom(s, t).Success?
    ensures var s' := MakeFrom(s, t).value;
      var n := |s.ptrs.handles|;
      && Inv(s') && |s'.ptrs.handles| == n + 1
      && s'.ptrs.handles[n].rc.Some?
      && s'.ptrs.handles[n].rc.value !in s.ptrs.heap.counts
      && s'.ptrs.heap.counts[s'.ptrs.handles[n].rc.value] == 1
      && s'.ptrs.handles[n].val == Some(NewImpl(s, t).1)
      && NewImpl(s, t).1 !in s.ptrs.heap.values && NewImpl(s, t).1 !in s.ptrs.heap.freedValues
      && Behaviour(s', n) == Some(t)
      && forall k | 0 <= k < n :: s'.ptrs.handles[k] == s.ptrs.handles[k] && Behaviour(s', k) == Behaviour(s, k)
  {
    NewImplPreserves(s, t);
    var c := NewImpl(s, t);
    MakeRawPreserves(c.0.ptrs, Some(c.1));
    var p := SharedPtr.MakeRaw(c.0.ptrs, Some(c.1)).value;
    var s' := MakeFrom(s, t).value;
    assert s' == c.0.(ptrs := p);
    var n := |s.ptrs.handles|;
    assert s'.ptrs.handles == s.ptrs.handles + [s'.ptrs.handles[n]];
    forall k | 0 <= k < n
      ensures Behaviour(s', k) == Behaviour(c.0, k)
    {
      assert s.ptrs.handles[k] in s.ptrs.handles;
    }
  }

  /** Copy construction aliases the implementation (same address, same counter), raises the
      shared count by one, and the copy calls the same behaviour. */
  lemma CopyShares(s: State, i: nat)
    requires Inv(s) && i < |s.ptrs.handles|
    ensures Copy(s, i).Success?
    ensures var s' := Copy(s, i).value;
      var n := |s.ptrs.handles|;
      var b := s.ptrs.handles[i].rc.value;
      && Inv(s')
      && s'.ptrs.handles == s.ptrs.handles + [s.ptrs.handles[i]]
      && SharedPtr.Get(s'.ptrs.handles[n]) == SharedPtr.Get(s.ptrs.handles[i])
      && b in s.ptrs.heap.counts
      && s'.ptrs.heap.counts == s.ptrs.heap.counts[b := s.ptrs.heap.counts[b] + 1]
      && Behaviour(s', n) == Behaviour(s, i)
  {
    assert s.ptrs.handles[i] in s.ptrs.handles;
    CopyPreserves(s.ptrs, i);
    var s' := Copy(s, i).value;
    assert forall q | q in s'.ptrs.handles :: q in s.ptrs.handles;
  }

  /** Self-assignment changes nothing, and the identity check in the source is only a
      shortcut: under the invariant it agrees with the plain `shared_ptr` assignment. */
  lemma AssignSelf(s: State, i: nat, j: nat)
    requires Inv(s) && i < |s.ptrs.handles| && j < |s.ptrs.handles|
    ensures i == j ==> Assign(s, i, j) == Success(s)
    ensures SharedPtr.Assign(s.ptrs, i, j).Success?
    ensures Assign(s, i, j) == Success(s.(ptrs := SharedPtr.Assign(s.ptrs, i, j).value))
  {
    AssignPreserves(s.ptrs, i, j);
    if i == j {
      AssignSelfNoop(s.ptrs, i, j);
    }
  }

  /** An object kept from `s` into `s'` calls the same behaviour when its implementation
      keeps its tag. */
  lemma SameBehaviour(s: State, s': State, k: nat, k': nat)
    requires Inv(s) && Inv(s') && k < |s.ptrs.handles| && k' < |s'.ptrs.handles|
    requires s'.ptrs.handles[k'] == s.ptrs.handles[k]
    requires forall a | a in s.ptrs.heap.values :: a in s'.tags && s'.tags[a] == s.tags[a]
    ensures Behaviour(s', k') == Behaviour(s, k)
  {
    assert s.ptrs.handles[k] in s.ptrs.handles;
  }

  /** A new `shared_ptr` state reached without adding implementations: values only go away
      and every object in it was an object before. */
  lemma KeepsInv(s: State, s': State)
    requires Inv(s) && SharedPtr.Inv(s'.ptrs)
    requires forall a | a in s.ptrs.heap.values :: a in s'.tags
    requires s'.ptrs.heap.values <= s.ptrs.heap.values
    requires forall q | q in s'.ptrs.handles :: q in s.ptrs.handles
    ensures Inv(s')
  {
  }

  /** Copy assignment from another wrapper makes the target an alias of the source's
      implementation: it calls the source's behaviour, the source's count goes up by one
      (when the two were not already sharing), and every other wrapper is unchanged. */
  lemma AssignAliases(s: State, i: nat, j: nat)
    requires Inv(s) && i < |s.ptrs.handles| && j < |s.ptrs.handles|
    ensures Assign(s, i, j).Success?
    ensures var s' := Assign(s, i, j).value;
      var b := s.ptrs.handles[j].rc.value;
      && Inv(s')
      && s'.ptrs.handles == s.ptrs.handles[i := s.ptrs.handles[j]]
      && Behaviour(s', i) == Behaviour(s, j)
      && (s.ptrs.handles[i].rc != s.ptrs.handles[j].rc ==>
            b in s'.ptrs.heap.counts && s'.ptrs.heap.counts[b] == s.ptrs.heap.counts[b] + 1)
  {
    var hs := s.ptrs.handles;
    AssignSelf(s, i, j);
    AssignPreserves(s.ptrs, i, j);
    var p := SharedPtr.Assign(s.ptrs, i, j).value;
    var s' := s.(ptrs := p);
    assert forall q | q in p.handles :: q in hs by {
      UpdateSubset(hs, i, hs[j]);
      assert hs[j] in hs;
    }
    KeepsInv(s, s');
    SameBehaviour(s, s', j, i);
    if hs[i].rc != hs[j].rc {
      LiveObject(s.ptrs, s.ptrs.handles[i]);
      AssignOther(s.ptrs, i, j);
    }
  }

  /** Copy assignment to wrapper `i` leaves every other wrapper, and what it calls, unchanged. */
  lemma AssignKeepsOthers(s: State, i: nat, j: nat, s': State)
    requires Inv(s) && i < |s.ptrs.handles| && j < |s.ptrs.handles| && Assign(s, i, j) == Success(s')
    ensures Inv(s')
    ensures forall k | 0 <= k < |s.ptrs.handles| && k != i ::
      s'.ptrs.handles[k] == s.ptrs.handles[k] && Behaviour(s', k) == Behaviour(s, k)
  {
    AssignAliases(s, i, j);
    OthersKept(s, s', i);
  }

  /** Assigning an invocable keeps the invariant and the target now calls the new invocable.
      (The counter effects are stated by AssignFromCore.) */
  lemma AssignFromFresh(s: State, i: nat, t: Tag)
    requires Inv(s) && i < |s.ptrs.handles|
    ensures AssignFrom(s, i, t).Success?
    ensures var s' := AssignFrom(s, i, t).value;
      && Inv(s') && |s'.ptrs.handles| == |s.ptrs.handles|
      && Behaviour(s', i) == Some(t)
  {
    var hs := s.ptrs.handles;
    var c := NewImpl(s, t);
    AssignFromCore(s, i, t);
    var s' := AssignFrom(s, i, t).value;
    NewImplPreserves(s, t);
    UpdateSubset(hs, i, s'.ptrs.handles[i]);
    KeepsFresh(s, c.0, s');
  }

  /** Assigning an invocable to wrapper `i` leaves every other wrapper, and what it calls,
      unchanged. */
  lemma AssignFromKeepsOthers(s: State, i: nat, t: Tag, s': State)
    requires Inv(s) && i < |s.ptrs.handles| && AssignFrom(s, i, t) == Success(s')
    ensures Inv(s') && |s'.ptrs.handles| == |s.ptrs.handles|
    ensures forall k | 0 <= k < |s.ptrs.handles| && k != i ::
      s'.ptrs.handles[k] == s.ptrs.handles[k] && Behaviour(s', k) == Behaviour(s, k)
  {
    AssignFromFrame(s, i, t, s');
    OthersKept(s, s', i);
  }

  /** What `AssignFrom` keeps: the invariant, every other wrapper, and the tags of the
      implementations that were live before. */
  lemma AssignFromFrame(s: State, i: nat, t: Tag, s': State)
    requires Inv(s) && i < |s.ptrs.handles| && AssignFrom(s, i, t) == Success(s')
    ensures Inv(s') && |s'.ptrs.handles| == |s.ptrs.handles|
    ensures forall k | 0 <= k < |s.ptrs.handles| && k != i :: s'.ptrs.handles[k] == s.ptrs.handles[k]
    ensures forall a | a in s.ptrs.heap.values :: a in s'.tags && s'.tags[a] == s.tags[a]
  {
    var c := NewImpl(s, t);
    assert Inv(s') by {
      AssignFromFresh(s, i, t);
    }
    assert s'.ptrs.handles == s.ptrs.handles[i := s'.ptrs.handles[i]] && s'.tags == c.0.tags by {
      AssignFromCore(s, i, t);
    }
    assert forall a | a in s.ptrs.heap.values :: a in c.0.tags && c.0.tags[a] == s.tags[a] by {
      NewImplPreserves(s, t);
    }
  }

  /** Every wrapper other than `i` is unchanged and calls what it called before, when `s'`
      differs from `s` only at `i` and keeps the old implementations' tags. */
  lemma OthersKept(s: State, s': State, i: nat)
    requires Inv(s) && Inv(s') && i < |s.ptrs.handles| && |s'.ptrs.handles| == |s.ptrs.handles|
    requires forall k | 0 <= k < |s.ptrs.handles| && k != i :: s'.ptrs.handles[k] == s.ptrs.handles[k]
    requires forall a | a in s.ptrs.heap.values :: a in s'.tags && s'.tags[a] == s.tags[a]
    ensures forall k | 0 <= k < |s.ptrs.handles| && k != i :: Behaviour(s', k) == Behaviour(s, k)
  {
    forall k | 0 <= k < |s.ptrs.handles| && k != i
      ensures Behaviour(s', k) == Behaviour(s, k)
    {
      SameBehaviour(s, s', k, k);
    }
  }

  /** `AssignFrom` at the level of the shared pointers: the target's new object owns the new
      implementation through a fresh counter of count 1, and its old counter is released,
      deleting the old implementation when the target was its last owner. */
  lemma AssignFromCore(s: State, i: nat, t: Tag)
    requires Inv(s) && i < |s.ptrs.handles|
    ensures AssignFrom(s, i, t).Success?
    ensures var c := NewImpl(s, t);
      var s' := AssignFrom(s, i, t).value;
      var prev := s.ptrs.handles[i].rc.value;
      var b := s'.ptrs.handles[i].rc.value;
      && SharedPtr.Inv(s'.ptrs) && s'.tags == c.0.tags
      && s'.ptrs.handles == s.ptrs.handles[i := SharedPtr.Ptr(Some(c.1), Some(b))]
      && s'.ptrs.heap.values <= c.0.ptrs.heap.values
      && b !in s.ptrs.heap.counts && b in s'.ptrs.heap.counts && s'.ptrs.heap.counts[b] == 1
      && prev in s.ptrs.heap.counts
      && (s.ptrs.heap.counts[prev] > 1 ==>
            prev in s'.ptrs.heap.counts && s'.ptrs.heap.counts[prev] == s.ptrs.heap.counts[prev] - 1)
      && (s.ptrs.heap.counts[prev] == 1 ==> prev !in s'.ptrs.heap.counts && prev in s'.ptrs.heap.freedBlocks)
      && (s.ptrs.heap.counts[prev] == 1 && s.ptrs.handles[i].val.Some? ==>
            var old_impl := s.ptrs.handles[i].val.value;
            old_impl !in s'.ptrs.heap.values && old_impl in s'.ptrs.heap.freedValues)
      && var old_ptr := s.ptrs.handles[i];
      && s'.ptrs.heap.values == (s.ptrs.heap.values + {c.1})
           - (if SharedPtr.DeletesValue(s.ptrs.heap, old_ptr) then {old_ptr.val.value} else {})
      && s'.ptrs.heap.freedValues == s.ptrs.heap.freedValues
           + (if SharedPtr.DeletesValue(s.ptrs.heap, old_ptr) then [old_ptr.val.value] else [])
  {
    var n := |s.ptrs.handles|;
    var c := NewImpl(s, t);
    NewImplPreserves(s, t);
    ResetFresh(c.0.ptrs, i, Some(c.1), n);
    var p1 := SharedPtr.MakeRaw(c.0.ptrs, Some(c.1)).value;
    assert |p1.handles| == n + 1 by {
      MakeRawPreserves(c.0.ptrs, Some(c.1));
    }
    AssignFromUnfold(s, i, t, n);
  }

  /** The state after `AssignFrom` keeps the invariant: its objects were objects before or
      own the new implementation. */
  lemma KeepsFresh(s: State, c: State, s': State)
    requires Inv(s) && SharedPtr.Inv(s'.ptrs) && s'.tags == c.tags
    requires forall a | a in s.ptrs.heap.values :: a in c.tags && c.tags[a] == s.tags[a]
    requires forall a | a in s'.ptrs.heap.values :: a in c.tags
    requires forall q | q in s'.ptrs.handles :: q in s.ptrs.handles || q.rc.Some?
    ensures Inv(s')
  {
  }

  /** The steps of `smartfun::operator=(Invocable)` once each has succeeded. */
  lemma AssignFromUnfold(s: State, i: nat, t: Tag, n: nat)
    requires i < n && n == |s.ptrs.handles|
    requires var c := NewImpl(s, t);
      && SharedPtr.MakeRaw(c.0.ptrs, Some(c.1)).Success?
      && var p1 := SharedPtr.MakeRaw(c.0.ptrs, Some(c.1)).value;
      && |p1.handles| == n + 1
      && SharedPtr.Assign(p1, i, n).Success?
      && SharedPtr.Destroy(SharedPtr.Assign(p1, i, n).value, n).Success?
    ensures var c := NewImpl(s, t);
      var p1 := SharedPtr.MakeRaw(c.0.ptrs, Some(c.1)).value;
      AssignFrom(s, i, t) == Success(c.0.(ptrs := SharedPtr.Destroy(SharedPtr.Assign(p1, i, n).value, n).value))
  {
  }

  /** Destroying a wrapper keeps the invariant and the remaining wrappers' behaviour. */
  lemma DestroyPreserves(s: State, i: nat)
    requires Inv(s) && i < |s.ptrs.handles|
    ensures Destroy(s, i).Success?
    ensures var s' := Destroy(s, i).value;
      && Inv(s') && s'.ptrs.handles == Remove(s.ptrs.handles, i)
      && forall k | 0 <= k < |s'.ptrs.handles| ::
           Behaviour(s', k) == Behaviour(s, if k < i then k else k + 1)
  {
    SharedPtrProofs.DestroyPreserves(s.ptrs, i);
    var s' := Destroy(s, i).value;
    var rest := s'.ptrs.handles;
    RemoveSubset(s.ptrs.handles, i);
    forall k | 0 <= k < |rest|
      ensures Behaviour(s', k) == Behaviour(s, if k < i then k else k + 1)
    {
      assert rest[k] in rest;
      assert rest[k] in s.ptrs.handles;
    }
  }
}

=== FILE: wrappers.dfy ===
/** Failure-compatible datatypes shared by the whole model. */
module Wrappers {

  /** A possibly-null pointer: `None` stands for `nullptr`. */
  datatype Option<+T> = None | Some(value: T)

  /** The outcome of an operation that may hit undefined behaviour.
      `Failure` carries a description of the memory fault. */
  datatype Result<+R, +E> = Success(value: R) | Failure(error: E) {

    predicate IsFailure() {
      Failure?
    }

    function PropagateFailure<U>(): Result<U, E>
      requires Failure?
    {
      Failure(error)
    }

    function Extract(): R
      requires Success?
    {
      value
    }
  }
}
